=== FILE: README.md ===
# Daily arXiv digest renderer — a Dafny model

This project models `parse_json_to_md.py`. That script turns the scored paper records of a
daily arXiv run into one Markdown digest, in four parts:

1. A header with the date.
2. A list of links, one per topic criterion, followed by an `Unknown` link.
3. One section per topic, listing the index entries of the papers a comment assigned to that
   topic, followed by an `unknown` section.
4. The full list of rendered papers, in input order.

The model is pure. The criteria file and the date are parameters:
- `lines` stands for the lines `readlines()` returns;
- `date` stands for the `strftime("%m/%d/%Y")` text.

The JSON object of papers is a sequence of `Paper` records, kept in the object's iteration order.

Modules, one per file:

- `Wrappers` (`wrappers.dfy`): `Option` and `Result`.
- `Seqs` (`seqs.dfy`): filtering, counting, concatenation and `str.join` over sequences.
- `Text` (`text.dfy`): character classes, Python's `str.strip`, decimal rendering of integers
  (`str(int)`), and reading the leading run of digits of a string.
- `Slugs` (`slug.dfy`): the `[More](#…)` anchor of an index entry.
- `Topic` (`topic.dfy`): `extract_criterion_from_paper`, i.e. `re.search(r'criterion (\d+)')`
  and the topic number it yields.
- `Criteria` (`criteria.dfy`): how criterion lines are filtered, how `int(line.split('.')[0])`
  reads their ids, and the link block `render_criterion` builds.
- `Papers` (`papers.dfy`): `render_paper` and `render_title_and_author`.
- `Digest` (`digest.dfy`): `render_md_paper_title_by_topic` and `render_md_string`. This covers
  bucketing by topic, the sections, the full list and the two failure modes.

The source can fail in two ways, and both are modelled as `Failure` values of `Digest.RenderError`:

- `BadCriterionId(line)`: `int()` raises `ValueError` on the first criterion line whose text
  before the first `.` is not an integer literal.
- `TopicOutOfRange(index, topic)`: `paper_str_group_by_topic[paper_topic_idx]`
  (parse_json_to_md.py:117) indexes past the end of the bucket list and raises `IndexError` on
  the first paper whose comment names a topic greater than the number of criteria.

The criteria are read before any paper is looked at, so a bad criterion line is reported first.

The docstring of `render_paper` shows records keyed `ARXIVID`, but the code reads `arxiv_id`,
and `Paper.arxivId` is that key.

## Model

| member | source | states |
|---|---|---|
| Slugs.Slug | parse_json_to_md.py:48-53 | the slug of a title; its contract is carried by Slugs.SlugStartsWithIndex, Slugs.AnchorLength, Slugs.Anchor and Slugs.AnchorIdempotent |
| Slugs.Anchor | parse_json_to_md.py:50-53 | the anchor contains only lower-case ASCII letters, digits and `-` |
| Slugs.AnchorLength | parse_json_to_md.py:50-53 | the anchor has exactly as many characters as the input has characters in `[a-zA-Z0-9 -]`; nothing else survives the `re.sub` |
| Slugs.AnchorHasNoSpaceOrUpper | parse_json_to_md.py:53 | after `replace(' ', '-').lower()` no space and no upper-case letter is left |
| Slugs.AnchorOfAnchorChars | parse_json_to_md.py:50-53 | a text made only of anchor characters is its own anchor |
| Slugs.AnchorIdempotent | parse_json_to_md.py:50-53 | applying the slug cleaning twice gives the same result as applying it once |
| Slugs.AnchorAppend | parse_json_to_md.py:50-53 | cleaning works character by character: the anchor of a concatenation is the concatenation of the anchors |
| Slugs.SlugStartsWithIndex | parse_json_to_md.py:48-53 | the slug of paper `idx` is the decimal `idx`, a dash, then the anchor of the title, so it starts with `idx-` |
| Slugs.AnchorOfSpace | parse_json_to_md.py:53 | a space becomes a dash |
| Slugs.SlugExample | parse_json_to_md.py:48-53 | title "A New Result!" at index 2 gets the slug `2-a-new-result` |
| Text.StripSpec | parse_json_to_md.py:90 | `strip()` gives the empty text exactly when the input is all whitespace; otherwise it gives the input with its leading and trailing whitespace, and only that, removed |
| Text.NatToString | parse_json_to_md.py:22 | `str(idx)` is a non-empty run of decimal digits with no leading zero unless the value is 0 |
| Text.DigitsValueOfNatToString | parse_json_to_md.py:77 | reading back the digits `str(n)` writes gives `n` |
| Text.NatToStringOfDigitsValue | parse_json_to_md.py:77 | a canonical digit run is what `str` writes for its value |
| Text.NatToStringInjective | parse_json_to_md.py:22 | different indices are written differently |
| Text.LeadingNumberOfNatToString | parse_json_to_md.py:71-77 | `(\d+)` takes the whole number written by `str(n)` when a non-digit or the end follows, and reads back `n` |
| Topic.TopicOf | parse_json_to_md.py:67-79 | `extract_criterion_from_paper`; its contract is carried by Topic.TopicOfLeftmost and Topic.TopicOfMarkedComment |
| Topic.FindMatch | parse_json_to_md.py:71-73 | `re.search` finds the leftmost position at or after the start where `criterion ` is followed by a digit; when it finds none, no such position exists |
| Topic.TopicOfLeftmost | parse_json_to_md.py:67-79 | topic 0 with no `COMMENT`; topic 0 when the comment has no match; otherwise the number after the leftmost match |
| Topic.MarkerAfter | parse_json_to_md.py:71-73 | in `pre + "criterion " + digits…`, where `pre` has no `c`, the match sits right after `pre` and there is none earlier |
| Topic.TopicOfMarkedComment | parse_json_to_md.py:67-77 | a comment reading `…criterion <n>` followed by a non-digit or the end, with no match anywhere before that marker, gives topic `n` |
| Topic.TopicOfMarkedCommentWithoutC | parse_json_to_md.py:67-77 | the same when the text before the marker has no `c` at all |
| Topic.ExampleNearMiss | parse_json_to_md.py:71-77 | "criterion A, then criterion 3" gives topic 3: a marker without a digit is passed over |
| Criteria.FilterCriteria | parse_json_to_md.py:90 | the kept topic lines; its contract is carried by Criteria.FilterCriteriaMembers and Criteria.FilterCriteriaOrder |
| Criteria.IsCriterionLineStrip | parse_json_to_md.py:90 | a line is a topic line exactly when its stripped text is non-empty and starts with a digit |
| Criteria.FilterCriteriaMembers | parse_json_to_md.py:90 | every kept line is a topic line that comes from the input, and every topic line of the input is kept |
| Criteria.FilterCriteriaOrder | parse_json_to_md.py:90 | the filter distributes over concatenation and keeps or drops each line on its own, so the kept lines stay in file order |
| Criteria.BeforeFirstDot | parse_json_to_md.py:62 | `split('.')[0]` is the longest dot-free prefix, and a dot follows it when it is shorter than the line |
| Criteria.IntStripSpec | parse_json_to_md.py:62 | `int()` cuts only tab, line feed, vertical tab, form feed, carriage return and space from both ends, and nothing else |
| Criteria.ParseInt | parse_json_to_md.py:62 | `int()` accepts exactly the texts that, once that whitespace is cut, are an optional `+` or `-` followed by digits with single underscores between them; the value it returns is stated by Criteria.ParseIntValue and Criteria.ParseIntOfIntToString |
| Criteria.LiteralValueOfDigits | parse_json_to_md.py:62 | a plain digit literal has its decimal value |
| Criteria.LiteralValueSkipsUnderscores | parse_json_to_md.py:62 | a literal's value is the decimal value of its digits with the underscores taken out, so `1_000` is 1000 |
| Criteria.ParseIntValue | parse_json_to_md.py:62 | when `int()` accepts a text, it returns the decimal value of the stripped text's digits, with underscores and sign skipped, negated when the sign is `-` |
| Criteria.ParseIntOfIntToString | parse_json_to_md.py:62 | `int(str(i))` is `i`, sign included |
| Criteria.ExampleSeparatorBeforeId | parse_json_to_md.py:62-90 | the line `"\x1c1. x"` passes the topic-line filter, because `strip()` removes 0x1C, but `int()` rejects its id `"\x1c1"` |
| Criteria.ExamplePlusId | parse_json_to_md.py:62 | "+1. x" declares id 1 |
| Criteria.ExampleMinusId | parse_json_to_md.py:62 | "-1. x" declares id -1 |
| Criteria.ExampleMinusLink | parse_json_to_md.py:63 | the link for id -1 targets `#topic--1` |
| Criteria.ParseTopicIdOfNumberedLine | parse_json_to_md.py:62 | a line `str(n).<anything>` has topic id `n`, for any integer `n` |
| Criteria.CollectIds | parse_json_to_md.py:61-62 | ids are read in line order; reading succeeds iff every line's id parses, and otherwise fails naming the first line that does not |
| Criteria.CollectIdsOfAllSome | parse_json_to_md.py:61-62 | when every line reads an id, the result is exactly those ids in order |
| Criteria.CollectIdsOfFirstNone | parse_json_to_md.py:61-62 | the error is the first line whose id does not parse, even if later lines fail too |
| Criteria.LinkTarget | parse_json_to_md.py:63 | the link of a line shows the line as its text and targets `#topic-` followed by `str(id)`, which `int()` reads back as the id; for a non-negative id the number after `#topic-` is the id |
| Criteria.LinkBlockCons | parse_json_to_md.py:59-65 | with no lines the block is the `Unknown` link alone; each line puts its own link ahead of the rest |
| Criteria.LinksSnoc | parse_json_to_md.py:61-63 | each iteration appends the link of the next line after those of the earlier ones |
| Criteria.RenderLinks | parse_json_to_md.py:59-65 | the loop fails on the first line without an id, or returns one link per line in order followed by the `Unknown` link |
| Criteria.RenderCriterion | parse_json_to_md.py:59-65 | `render_criterion` on any list of lines: a `ValueError` naming the first line whose id `int()` rejects, or the link block of the lines with their parsed ids, signed ids included |
| Papers.RenderPaper | parse_json_to_md.py:6-36 | `render_paper`; its contract is carried by Papers.RenderPaperShape, Papers.RenderPaperIndex, Papers.CommentShownRoundTrip and Papers.ScoresShownRoundTrip |
| Papers.RenderPaperShape | parse_json_to_md.py:22-36 | a rendered paper starts with its `## idx. [title](url)` heading line and ends with the back-to-top link and the rule |
| Papers.RenderPaperIndex | parse_json_to_md.py:22 | after `## ` the heading shows the paper's index |
| Papers.CommentShownRoundTrip | parse_json_to_md.py:26-28 | `render_paper` appends a `**Comment:**` piece iff the record has `COMMENT`, and that piece shows exactly the comment |
| Papers.ScoresShownRoundTrip | parse_json_to_md.py:29-34 | `render_paper` appends a relevance piece iff both scores are present, and likewise a novelty piece, so a single score gives neither; when appended they read back as those two scores |
| Papers.FieldOfPaper | parse_json_to_md.py:22-36 | none of the fixed lines of a rendered paper carries the comment or score labels, so those lines come from the optional part only |
| Papers.TitleEntry | parse_json_to_md.py:39-56 | `render_title_and_author`; its contract is carried by Papers.TitleEntryMoreLink, Papers.TitleEntryIndex and Papers.EntriesDistinct |
| Papers.TitleEntryMoreLink | parse_json_to_md.py:48-55 | the index entry's `More` link targets the slug `idx-` plus the cleaned title, which contains only anchor characters |
| Papers.TitleEntryIndex | parse_json_to_md.py:54 | an index entry starts with the paper's index |
| Papers.EntriesDistinct | parse_json_to_md.py:22-54 | papers at different positions get different index entries and different rendered blocks |
| Digest.TopicIndicesSpec | parse_json_to_md.py:113-117 | the positions of the papers in topic `k`, strictly increasing: a position is listed iff its paper's topic is `k` |
| Digest.TopicIndicesSnoc | parse_json_to_md.py:114-117 | a new paper adds its own position at the end of its topic's list and changes no other list |
| Digest.BucketSnoc | parse_json_to_md.py:114-117 | appending a paper appends its index entry to its own bucket only, so buckets keep input order |
| Digest.EntryInBucketIff | parse_json_to_md.py:113-117 | a paper's index entry is in bucket `k` iff its topic is `k`, so it lands in exactly one bucket |
| Digest.BucketsCoverAllPapers | parse_json_to_md.py:113-117 | when every topic is in range, the bucket sizes add up to the number of papers |
| Digest.IndexTotalOfBounded | parse_json_to_md.py:113-117 | when every topic is below `m`, the positions listed under topics `0..m-1` number exactly as many as the papers |
| Digest.FirstStray | parse_json_to_md.py:114-117 | the first paper whose topic exceeds the number of criteria; every paper before it is in range |
| Digest.PartialBucketsStep | parse_json_to_md.py:115-117 | one loop step appends the paper's entry to the bucket of its topic and leaves every other bucket alone |
| Digest.PartialBucketsDone | parse_json_to_md.py:113-117 | after the last paper the loop's buckets are the buckets by topic |
| Digest.GroupByTopic | parse_json_to_md.py:113-117 | `IndexError` at the first paper whose topic is out of range; otherwise bucket `k` holds the entries of the papers with topic `k`, in input order |
| Digest.TopicSection | parse_json_to_md.py:81-82 | `render_md_paper_title_by_topic`; its contract is carried by Digest.SectionHeadings and Digest.NoPapersEmptySections |
| Digest.NumberedSectionsThenUnknown | parse_json_to_md.py:119-124 | the loop emits the numbered sections in order before the `unknown` one |
| Digest.RenderSections | parse_json_to_md.py:119-124 | sections `1..N` in order, then the `unknown` section holding bucket 0 |
| Digest.SectionHeadings | parse_json_to_md.py:81-82 | section `k` is headed `### Topic ` followed by `k+1`, and the last one is headed `### Topic unknown` |
| Digest.LinksMatchSections | parse_json_to_md.py:63 | when criterion `i` declares id `i+1`, its link target names the same number as the heading of the `i`-th numbered section |
| Digest.NoPapersEmptySections | parse_json_to_md.py:81-82 | with no papers every bucket is empty and each section body is the back-to-top link followed by the rule |
| Digest.RenderFullList | parse_json_to_md.py:127-132 | the full list joins the rendered papers with newlines, in input order |
| Digest.FullListSnoc | parse_json_to_md.py:127-132 | a further paper adds a newline and its rendering at the end of the full list |
| Digest.Document | parse_json_to_md.py:85-135 | `render_md_string` as a function of the criterion lines; its contract is carried by Digest.RenderMdString, Digest.DocumentFrom and Digest.DocumentFromSucceeds |
| Digest.DocumentFrom | parse_json_to_md.py:85-135 | a bad-criterion error occurs iff some criterion id does not parse, and it names the first such line; an out-of-range error names the first paper whose topic exceeds the criteria count |
| Digest.DocumentFromSucceeds | parse_json_to_md.py:85-135 | the digest renders iff every criterion id parses and every paper's topic is at most the number of criteria |
| Digest.DocumentOfNoPapers | parse_json_to_md.py:113-132 | with well-formed criteria and no papers the digest renders and ends with the `## Full paper list` heading |
| Digest.RenderFiltered | parse_json_to_md.py:92-132 | the imperative rendering from filtered criteria (links, grouping loop, sections, full list) equals the digest's definition, failures included |
| Digest.RenderMdString | parse_json_to_md.py:85-135 | `render_md_string` filters the criterion lines and renders the digest or its first error |
| Digest.ExampleComment | parse_json_to_md.py:67-77 | the comment "meets criterion 1" names topic 1 |
| Digest.ExampleSeparatorRaises | parse_json_to_md.py:85-92 | a criteria file made of the one line `"\x1c1. x"` makes `render_md_string` raise `ValueError` naming that line, whatever the papers |
| Digest.ExampleCriteria | parse_json_to_md.py:62 | lines `1. …` and `2. …` both declare ids |
| Digest.ExampleRenders | parse_json_to_md.py:85-135 | two criteria and two papers, one naming criterion 1 and one without a comment, render without error |
| Digest.TwoPaperBuckets | parse_json_to_md.py:113-117 | papers with topics 1 and 0 land in buckets 1 and 0, and every other bucket is empty |
| Digest.ExampleBuckets | parse_json_to_md.py:113-117 | in that example, topic 1 holds the first paper, topic 2 is empty and `unknown` holds the second paper |
| Digest.ExampleFullList | parse_json_to_md.py:127-132 | two papers' full list is the first rendering, a newline, then the second |

## Left out

- File access is not modelled. Reading `configs/paper_topics.txt` (lines 87-88) becomes the `lines` parameter. Loading `out/output.json` and writing `out/output.md` (lines 138-144) are outside the model.
- The clock is not modelled: `datetime.today().strftime("%m/%d/%Y")` (line 96) is the `date` parameter.
- JSON decoding is left out. The paper dictionary's iteration order is the order of the `papers` sequence.
- Required keys are fields of `Paper`. A record missing `arxiv_id`, `title`, `authors` or `abstract`, which would raise `KeyError`, cannot be expressed.
- Scores are integers, as in the pipeline's records. Other JSON values under `RELEVANCE` or `NOVELTY` are not modelled.
- Characters are ASCII-classified. Python's `str.strip`, `int()` and the regex `\d` also accept Unicode whitespace and non-ASCII decimal digits; the model uses the ASCII digits and two ASCII whitespace sets. `str.strip` uses tab to carriage return, 0x1C-0x1F and space. `int()` on an ASCII text skips only tab to carriage return and space. `int()` also maps non-ASCII whitespace and decimal digits to ASCII before parsing; that mapping is not modelled.
- Criteria.ParseInt: does not model the limit on decimal digits that newer Python releases apply by default (4300 digits: 3.11 on, and the 3.10.7, 3.9.14 and 3.8.14 security releases), because the limit depends on the interpreter version and its settings. A criterion id longer than that raises `ValueError` there, but the model reads its value.
- Topic.TopicOf: does not model the same digit limit on `int(criterion_number)` (line 77), for the same reason. A comment naming a criterion with more than 4300 digits raises `ValueError` there, but the model gives that number as the topic, so the digest reports `TopicOutOfRange` instead.
- The lines commented out (100-103, 105-111, 133-134) are not modelled.
- The way a Markdown viewer resolves `#topic-…` and `#…` anchors against headings is not modelled. Digest.LinksMatchSections states only that the numbers agree, and only when criterion `i` declares id `i+1`.
- Criteria.RenderCriterion parses every id before the loop rather than inside it. `int()` has no side effects, so the result and the first error are unchanged.
- Digest.ExampleRenders starts from criteria that are already filtered and from arbitrary criterion descriptions; it does not spell out the full document text.

=== FILE: criteria.dfy ===
/** The criterion loader and the table-of-contents link block built from it. */
module Criteria {
  import opened Wrappers
  import opened Text
  import opened Seqs

  /** A line that names a topic: its first character that is not whitespace is an ASCII digit. */
  predicate IsCriterionLine(line: string)
  {
    var j := SkipSpaces(line, 0);
    j < |line| && IsDigit(line[j])
  }

  /** The test reads the line as `render_md_string` does: once stripped, the line is non-empty
      and starts with a digit. */
  lemma IsCriterionLineStrip(line: string)
    ensures IsCriterionLine(line) <==> |Strip(line)| > 0 && IsDigit(Strip(line)[0])
  {
    var j := SkipSpaces(line, 0);
    if j < |line| {
      assert !IsSpace(line[j]);
    }
  }

  /** The topic lines of the criteria file, in file order. */
  function FilterCriteria(lines: seq<string>): (r: seq<string>)
    ensures |r| <= |lines|
  {
    Filter(IsCriterionLine, lines)
  }

  /** Every kept line names a topic and comes from the file, and every topic line of the file
      is kept. */
  lemma FilterCriteriaMembers(lines: seq<string>)
    ensures forall i :: 0 <= i < |FilterCriteria(lines)| ==> IsCriterionLine(FilterCriteria(lines)[i])
    ensures forall line :: line in FilterCriteria(lines) ==> line in lines
    ensures forall i :: 0 <= i < |lines| && IsCriterionLine(lines[i]) ==> lines[i] in FilterCriteria(lines)
  {
    FilterMembers(IsCriterionLine, lines);
  }

  /** Filtering keeps the order of the file: the kept lines of a first block come before
      those of a second, and a single line is kept exactly when it names a topic. */
  lemma FilterCriteriaOrder(a: seq<string>, b: seq<string>, line: string)
    ensures FilterCriteria(a + b) == FilterCriteria(a) + FilterCriteria(b)
    ensures FilterCriteria([line]) == if IsCriterionLine(line) then [line] else []
  {
    FilterAppend(IsCriterionLine, a, b);
    FilterSingleton(IsCriterionLine, line);
  }

  // ---------------------------------------------------------------- topic ids

  /** The text before the first '.', or all of `s` when it has none: `s.split('.')[0]`. */
  function BeforeFirstDot(s: string): (r: string)
    ensures |r| <= |s| && r == s[..|r|]
    ensures forall i :: 0 <= i < |r| ==> r[i] != '.'
    ensures |r| < |s| ==> s[|r|] == '.'
  {
    if s == [] || s[0] == '.' then [] else [s[0]] + BeforeFirstDot(s[1..])
  }

  predicate IsDigitOrUnderscore(c: char) { IsDigit(c) || c == '_' }

  predicate DoubleUnderscoreAt(s: string, i: nat)
    requires i + 1 < |s|
  {
    s[i] == '_' && s[i + 1] == '_'
  }

  /** The unsigned literals `int()` accepts once the text is stripped: ASCII digits,
      with single underscores allowed between two digits. */
  predicate IsIntLiteral(s: string)
  {
    && |s| > 0
    && IsDigit(s[0])
    && IsDigit(s[|s| - 1])
    && (forall i :: 0 <= i < |s| ==> IsDigitOrUnderscore(s[i]))
    && (forall i :: 0 <= i < |s| - 1 ==> !DoubleUnderscoreAt(s, i))
  }

  predicate IsSign(c: char) { c == '+' || c == '-' }

  /** The texts `int()` accepts once stripped: an unsigned literal, or a sign followed by one. */
  predicate IsSignedLiteral(t: string)
  {
    IsIntLiteral(t) || (|t| > 0 && IsSign(t[0]) && IsIntLiteral(t[1..]))
  }

  /** The whitespace `int()` skips around a literal written in ASCII: tab, line feed, vertical
      tab, form feed, carriage return and space. Unlike `str.isspace`, it leaves out the
      separators 0x1C..0x1F. */
  predicate IsIntSpace(c: char) { '\t' <= c <= '\r' || c == ' ' }

  /** The first position at or after `i` that is not `int()` whitespace. */
  function SkipIntSpaces(s: string, i: nat): (j: nat)
    requires i <= |s|
    ensures i <= j <= |s|
    ensures forall k :: i <= k < j ==> IsIntSpace(s[k])
    ensures j == |s| || !IsIntSpace(s[j])
    decreases |s| - i
  {
    if i < |s| && IsIntSpace(s[i]) then SkipIntSpaces(s, i + 1) else i
  }

  /** The end of `s[lo..j]` once its trailing `int()` whitespace is dropped. */
  function SkipIntSpacesBack(s: string, lo: nat, j: nat): (k: nat)
    requires lo <= j <= |s|
    ensures lo <= k <= j
    ensures forall m :: k <= m < j ==> IsIntSpace(s[m])
    ensures k == lo || !IsIntSpace(s[k - 1])
    decreases j
  {
    if j > lo && IsIntSpace(s[j - 1]) then SkipIntSpacesBack(s, lo, j - 1) else j
  }

  /** The text `int()` reads: `s` without its leading and trailing `int()` whitespace. */
  function IntStrip(s: string): (r: string)
    ensures |r| <= |s|
  {
    var lo := SkipIntSpaces(s, 0);
    var hi := SkipIntSpacesBack(s, lo, |s|);
    s[lo..hi]
  }

  /** What `IntStrip` leaves: a middle part of `s` that neither starts nor ends with `int()`
      whitespace, with only such whitespace cut on either side. */
  lemma IntStripSpec(s: string)
    ensures |IntStrip(s)| > 0 ==> !IsIntSpace(IntStrip(s)[0]) && !IsIntSpace(IntStrip(s)[|IntStrip(s)| - 1])
    ensures exists lo, hi :: 0 <= lo <= hi <= |s| && IntStrip(s) == s[lo..hi]
              && (forall k :: 0 <= k < lo ==> IsIntSpace(s[k]))
              && (forall k :: hi <= k < |s| ==> IsIntSpace(s[k]))
  {
    var lo := SkipIntSpaces(s, 0);
    var hi := SkipIntSpacesBack(s, lo, |s|);
    assert IntStrip(s) == s[lo..hi];
  }

  /** `int(s)` on a string: the value of the stripped, optionally signed literal, or `None`
      where Python raises `ValueError`. */
  function ParseInt(s: string): (r: Option<int>)
    ensures r.Some? <==> IsSignedLiteral(IntStrip(s))
  {
    var t := IntStrip(s);
    if IsIntLiteral(t) then Some(LiteralValue(t))
    else if |t| > 0 && IsSign(t[0]) && IsIntLiteral(t[1..]) then
      (if t[0] == '-' then Some(0 - LiteralValue(t[1..])) else Some(LiteralValue(t[1..])))
    else None
  }

  /** The number the digits of `t` denote once its underscores are skipped. */
  function LiteralValue(t: string): nat
    requires forall i :: 0 <= i < |t| ==> IsDigitOrUnderscore(t[i])
  {
    if t == [] then 0
    else if !IsDigit(t[|t| - 1]) then LiteralValue(t[..|t| - 1])
    else 10 * LiteralValue(t[..|t| - 1]) + DigitValue(t[|t| - 1])
  }

  /** Without underscores, a literal has the plain decimal value of its digits. */
  lemma {:induction false} LiteralValueOfDigits(t: string)
    requires AllDigits(t)
    ensures LiteralValue(t) == DigitsValue(t)
  {
    if t != [] {
      LiteralValueOfDigits(t[..|t| - 1]);
    }
  }

  /** Underscores only group digits: a literal has the decimal value of its digits with the
      underscores taken out, so `1_000` is 1000. */
  lemma {:induction false} LiteralValueSkipsUnderscores(t: string)
    requires forall i :: 0 <= i < |t| ==> IsDigitOrUnderscore(t[i])
    ensures AllDigits(Filter(IsDigit, t))
    ensures LiteralValue(t) == DigitsValue(Filter(IsDigit, t))
  {
    FilterMembers(IsDigit, t);
    if t != [] {
      var init, last := t[..|t| - 1], t[|t| - 1];
      assert t == init + [last];
      FilterAppend(IsDigit, init, [last]);
      FilterSingleton(IsDigit, last);
      LiteralValueSkipsUnderscores(init);
      var f := Filter(IsDigit, init);
      if IsDigit(last) {
        assert Filter(IsDigit, t) == f + [last];
        assert (f + [last])[..|f|] == f;
        assert DigitsValue(f + [last]) == 10 * DigitsValue(f) + DigitValue(last);
      } else {
        assert Filter(IsDigit, t) == f;
      }
    }
  }

  /** The value `int()` returns: the digits of the stripped text, underscores and sign
      skipped, negated when the sign is `-`. */
  lemma ParseIntValue(s: string)
    ensures ParseInt(s).Some? ==> AllDigits(Filter(IsDigit, IntStrip(s)))
    ensures ParseInt(s).Some? ==>
              ParseInt(s).value == (if IntStrip(s)[0] == '-' then -1 else 1) * DigitsValue(Filter(IsDigit, IntStrip(s)))
  {
    var t := IntStrip(s);
    if IsIntLiteral(t) {
      LiteralValueSkipsUnderscores(t);
    } else if |t| > 0 && IsSign(t[0]) && IsIntLiteral(t[1..]) {
      var u := t[1..];
      assert t == [t[0]] + u;
      FilterAppend(IsDigit, [t[0]], u);
      FilterSingleton(IsDigit, t[0]);
      assert Filter(IsDigit, t) == Filter(IsDigit, u);
      LiteralValueSkipsUnderscores(u);
    }
  }

  /** `int(str(i))` is `i`, sign included. */
  lemma ParseIntOfIntToString(i: int)
    ensures ParseInt(IntToString(i)) == Some(i)
  {
    var d := IntToString(i);
    var n := if i < 0 then -i else i;
    var digits := NatToString(n);
    assert d[|d| - 1] == digits[|digits| - 1];
    assert SkipIntSpaces(d, 0) == 0;
    assert SkipIntSpacesBack(d, 0, |d|) == |d|;
    assert IntStrip(d) == d;
    LiteralValueOfDigits(digits);
    DigitsValueOfNatToString(n);
    if i < 0 {
      assert d[1..] == digits;
      assert !IsIntLiteral(d);
    }
  }

  /** A criterion line is kept when `strip()` finds a digit first, but `int()` skips less
      whitespace: a line opening with the separator 0x1C is kept, yet its id is rejected. */
  lemma ExampleSeparatorBeforeId()
    ensures IsCriterionLine("\U{1C}1. x")
    ensures ParseTopicId("\U{1C}1. x") == None
  {
    assert SkipSpaces("\U{1C}1. x", 0) == 1;
    assert BeforeFirstDot("\U{1C}1. x") == "\U{1C}1";
    assert SkipIntSpaces("\U{1C}1", 0) == 0;
    assert SkipIntSpacesBack("\U{1C}1", 0, 2) == 2;
    assert IntStrip("\U{1C}1") == "\U{1C}1";
  }

  /** A leading `+` is accepted: "+1. x" declares 1. */
  lemma ExamplePlusId()
    ensures ParseTopicId("+1. x") == Some(1)
  {
    assert BeforeFirstDot("+1. x") == "+1";
    assert SkipIntSpaces("+1", 0) == 0 && SkipIntSpacesBack("+1", 0, 2) == 2;
    assert IntStrip("+1") == "+1";
    assert !IsIntLiteral("+1");
    assert "+1"[1..] == "1" && IsIntLiteral("1");
    assert LiteralValue("1") == LiteralValue("") * 10 + 1;
  }

  /** A leading `-` is accepted too: "-1. x" declares -1. */
  lemma ExampleMinusId()
    ensures ParseTopicId("-1. x") == Some(-1)
  {
    assert IntToString(-1) == "-1";
    assert "-1. x" == IntToString(-1) + "." + " x";
    ParseTopicIdOfNumberedLine(-1, " x");
  }

  /** The id -1 is written by `str()` with its sign, so its link targets `#topic--1`. */
  lemma ExampleMinusLink()
    ensures Link("-1. x", -1) == "[-1. x](#topic--1)\n\n"
  {
    assert IntToString(-1) == "-1";
  }

  /** The id a criterion line declares: `int(line.split('.')[0])`. */
  function ParseTopicId(line: string): Option<int>
  {
    ParseInt(BeforeFirstDot(line))
  }

  /** A line written "<n>.<anything>" declares topic `n`. */
  lemma ParseTopicIdOfNumberedLine(n: int, rest: string)
    ensures ParseTopicId(IntToString(n) + "." + rest) == Some(n)
  {
    var d := IntToString(n);
    assert forall i :: 0 <= i < |d| ==> d[i] != '.' by {
      if n >= 0 {
        assert d == NatToString(n);
      } else {
        assert d == "-" + NatToString(-n);
        assert forall i :: 1 <= i < |d| ==> d[i] == NatToString(-n)[i - 1];
      }
    }
    var line := d + "." + rest;
    var b := BeforeFirstDot(line);
    assert forall i :: 0 <= i < |d| ==> line[i] == d[i];
    assert line[|d|] == '.';
    assert b == d;
    ParseIntOfIntToString(n);
  }

  /** The position of the first `None` at or after `i`, or `|xs|` when there is none. */
  function FirstNone<T>(xs: seq<Option<T>>, i: nat): (k: nat)
    requires i <= |xs|
    ensures i <= k <= |xs|
    ensures forall j :: i <= j < k ==> xs[j].Some?
    ensures k < |xs| ==> xs[k].None?
    decreases |xs| - i
  {
    if i == |xs| || xs[i].None? then i else FirstNone(xs, i + 1)
  }

  /** The id each criterion line declares, or `None` where `int()` raises. */
  function DeclaredIds(criteria: seq<string>): (r: seq<Option<int>>)
    ensures |r| == |criteria|
  {
    seq(|criteria|, i requires 0 <= i < |criteria| => ParseTopicId(criteria[i]))
  }

  /** Given the id read from each line, all the ids in order, or the first line without one. */
  function CollectIds(criteria: seq<string>, ds: seq<Option<int>>): (r: Result<seq<int>, string>)
    requires |ds| == |criteria|
    ensures r.Success? <==> forall i :: 0 <= i < |ds| ==> ds[i].Some?
    ensures r.Success? ==> |r.value| == |criteria|
    ensures r.Success? ==> forall i :: 0 <= i < |criteria| ==> ds[i] == Some(r.value[i])
    ensures r.Failure? ==> var k := FirstNone(ds, 0);
                           k < |criteria| && r.error == criteria[k]
  {
    var k := FirstNone(ds, 0);
    if k < |ds| then Failure(criteria[k])
    else Success(seq(|ds|, i requires 0 <= i < |ds| => ds[i].value))
  }

  /** The ids of all topic lines, in order, or the first line whose id `int()` rejects. */
  function TopicIds(criteria: seq<string>): Result<seq<int>, string>
  {
    CollectIds(criteria, DeclaredIds(criteria))
  }

  // ---------------------------------------------------------------- link block

  /** The table-of-contents link of one criterion line; the id is written with `str()`. */
  function Link(line: string, id: int): string
  {
    "[" + line + "](#topic-" + IntToString(id) + ")\n\n"
  }

  const UnknownLink: string := "[Unknown](#topic-unknown)\n\n"

  /** One link per criterion line, in the order of the lines. */
  function Links(criteria: seq<string>, ids: seq<int>): (r: seq<string>)
    requires |ids| == |criteria|
    ensures |r| == |criteria|
  {
    seq(|criteria|, i requires 0 <= i < |criteria| => Link(criteria[i], ids[i]))
  }

  /** The block: every criterion's link, then the fixed link to the unknown topic. */
  function LinkBlock(criteria: seq<string>, ids: seq<int>): string
    requires |ids| == |criteria|
  {
    Concat(Links(criteria, ids)) + UnknownLink
  }

  /** The link of a line targets `#topic-` and the id it was given: `int()` reads the id back
      from between `](#topic-` and the closing `)`, and a non-negative id is the number that
      follows `](#topic-`. */
  lemma LinkTarget(line: string, id: int)
    ensures var head := "[" + line + "](#topic-";
            var link := Link(line, id);
            StartsWith(link, head) && EndsWith(link, ")\n\n")
            && ParseInt(link[|head|..|link| - 3]) == Some(id)
    ensures id >= 0 ==> var head := "[" + line + "](#topic-";
                        LeadingNumber(Link(line, id)[|head|..]) == id
  {
    var head := "[" + line + "](#topic-";
    var link := Link(line, id);
    assert link == head + IntToString(id) + ")\n\n";
    assert link[..|head|] == head;
    assert link[|head|..|link| - 3] == IntToString(id);
    assert link[|link| - 3..] == ")\n\n";
    ParseIntOfIntToString(id);
    if id >= 0 {
      assert link == head + (NatToString(id) + ")\n\n");
      IndexAfterMarker(link, head, id, ")\n\n");
    }
  }

  /** With no lines the block is the unknown topic's link alone; each further line puts its own
      link in front, so the block holds one link per line, in order, then the unknown link. */
  lemma LinkBlockCons(line: string, id: int, criteria: seq<string>, ids: seq<int>)
    requires |ids| == |criteria|
    ensures LinkBlock([], []) == UnknownLink
    ensures LinkBlock([line] + criteria, [id] + ids) == Link(line, id) + LinkBlock(criteria, ids)
  {
    var links := Links([line] + criteria, [id] + ids);
    var rest := Links(criteria, ids);
    assert links[0] == Link(line, id);
    assert links[1..] == rest;
    assert Concat(links) == Link(line, id) + Concat(rest);
    AppendAssoc(Link(line, id), Concat(rest), UnknownLink);
    assert Links([], []) == [];
  }

  /** Extending the processed prefix by one line appends that line's link. */
  lemma LinksSnoc(criteria: seq<string>, i: nat, ids: seq<int>, id: int)
    requires i < |criteria| && |ids| == i
    ensures Concat(Links(criteria[..i + 1], ids + [id])) == Concat(Links(criteria[..i], ids)) + Link(criteria[i], id)
  {
    assert Links(criteria[..i + 1], ids + [id]) == Links(criteria[..i], ids) + [Link(criteria[i], id)];
    ConcatSnoc(Links(criteria[..i], ids), Link(criteria[i], id));
  }

  /** Ids read for every line are exactly the ids collected. */
  lemma CollectIdsOfAllSome(criteria: seq<string>, ds: seq<Option<int>>, ids: seq<int>)
    requires |ds| == |criteria| && |ids| == |criteria|
    requires forall j :: 0 <= j < |criteria| ==> ds[j] == Some(ids[j])
    ensures CollectIds(criteria, ds) == Success(ids)
  {
    var r := CollectIds(criteria, ds);
    assert r.Success?;
    forall j | 0 <= j < |ids|
      ensures r.value[j] == ids[j]
    {
      assert ds[j] == Some(r.value[j]);
    }
    assert r.value == ids;
  }

  /** The first line without an id is the line reported. */
  lemma CollectIdsOfFirstNone(criteria: seq<string>, ds: seq<Option<int>>, i: nat)
    requires |ds| == |criteria| && i < |criteria| && ds[i].None?
    requires forall j :: 0 <= j < i ==> ds[j].Some?
    ensures CollectIds(criteria, ds) == Failure(criteria[i])
  {
    assert FirstNone(ds, 0) == i;
  }

  /** The link block built one line at a time from the id read from each line, stopping at the
      first line without one. */
  method RenderLinks(criteria: seq<string>, ds: seq<Option<int>>) returns (r: Result<string, string>)
    requires |ds| == |criteria|
    ensures CollectIds(criteria, ds).Failure? ==> r == Failure(CollectIds(criteria, ds).error)
    ensures CollectIds(criteria, ds).Success? ==> r == Success(LinkBlock(criteria, CollectIds(criteria, ds).value))
  {
    var block := "";
    var i := 0;
    ghost var ids: seq<int> := [];
    while i < |criteria|
      invariant 0 <= i <= |criteria|
      invariant |ids| == i
      invariant forall j :: 0 <= j < i ==> ds[j] == Some(ids[j])
      invariant block == Concat(Links(criteria[..i], ids))
    {
      match ds[i] {
        case None =>
          CollectIdsOfFirstNone(criteria, ds, i);
          return Failure(criteria[i]);
        case Some(id) =>
          LinksSnoc(criteria, i, ids, id);
          block := block + Link(criteria[i], id);
          ids := ids + [id];
      }
      i := i + 1;
    }
    assert criteria[..i] == criteria;
    CollectIdsOfAllSome(criteria, ds, ids);
    return Success(block + UnknownLink);
  }

  /** `render_criterion`: reads each line's id with `int()` and builds the link block, raising
      at the first line whose id is not an integer. */
  method RenderCriterion(criteria: seq<string>) returns (r: Result<string, string>)
    ensures TopicIds(criteria).Failure? ==> r == Failure(TopicIds(criteria).error)
    ensures TopicIds(criteria).Success? ==> r == Success(LinkBlock(criteria, TopicIds(criteria).value))
  {
    r := RenderLinks(criteria, DeclaredIds(criteria));
  }
}

=== FILE: digest.dfy ===
/** Grouping papers by topic and assembling the whole Markdown digest (`render_md_string`). */
module Digest {
  import opened Wrappers
  import opened Text
  import opened Seqs
  import opened Topic
  import opened Criteria
  import opened Papers

  /** Why `render_md_string` raises instead of returning a document. */
  datatype RenderError =
    /** `int()` rejected the id of this criterion line (a `ValueError`). */
    | BadCriterionId(line: string)
    /** The paper at `index` names a topic with no bucket (an `IndexError`). */
    | TopicOutOfRange(index: nat, topic: nat)

  // ---------------------------------------------------------------- buckets

  /** The topic of every paper, in input order. */
  function Topics(papers: seq<Paper>): (ts: seq<nat>)
    ensures |ts| == |papers|
  {
    seq(|papers|, i requires 0 <= i < |papers| => TopicOf(papers[i].comment))
  }

  /** The positions `i` with `ts[i] == k`, in ascending order. */
  function TopicIndices(ts: seq<nat>, k: nat): (r: seq<nat>)
    ensures forall j :: 0 <= j < |r| ==> r[j] < |ts|
  {
    if ts == [] then []
    else TopicIndices(ts[..|ts| - 1], k) + (if ts[|ts| - 1] == k then [|ts| - 1] else [])
  }

  /** A position is listed under topic `k` exactly when its topic is `k`, and the positions
      are listed in strictly increasing order. */
  lemma {:induction false} TopicIndicesSpec(ts: seq<nat>, k: nat)
    ensures forall i :: i in TopicIndices(ts, k) ==> i < |ts| && ts[i] == k
    ensures forall i :: 0 <= i < |ts| ==> (i in TopicIndices(ts, k) <==> ts[i] == k)
    ensures forall a, b :: 0 <= a < b < |TopicIndices(ts, k)| ==> TopicIndices(ts, k)[a] < TopicIndices(ts, k)[b]
  {
    if ts != [] {
      var init := ts[..|ts| - 1];
      TopicIndicesSpec(init, k);
      assert forall i :: 0 <= i < |init| ==> init[i] == ts[i];
    }
  }

  /** The index entries of the papers at positions `ix`, in that order. */
  function Entries(papers: seq<Paper>, ix: seq<nat>): (r: seq<string>)
    requires forall j :: 0 <= j < |ix| ==> ix[j] < |papers|
    ensures |r| == |ix|
  {
    seq(|ix|, j requires 0 <= j < |ix| => TitleEntry(papers[ix[j]], ix[j]))
  }

  /** Bucket `k`: the index entries of the papers classified under topic `k`, in input order. */
  function Bucket(papers: seq<Paper>, k: nat): seq<string>
  {
    Entries(papers, TopicIndices(Topics(papers), k))
  }

  /** The first paper at or after `i` whose topic has no bucket among 0..n, or `|papers|`. */
  function FirstStray(papers: seq<Paper>, n: nat, i: nat): (k: nat)
    requires i <= |papers|
    ensures i <= k <= |papers|
    ensures forall j :: i <= j < k ==> TopicOf(papers[j].comment) <= n
    ensures k < |papers| ==> TopicOf(papers[k].comment) > n
    decreases |papers| - i
  {
    if i == |papers| || TopicOf(papers[i].comment) > n then i else FirstStray(papers, n, i + 1)
  }

  // ---------------------------------------------------------------- document

  /** `render_md_paper_title_by_topic`: one topic's heading, its entries and a rule. */
  function TopicSection(name: string, entries: seq<string>): string
  {
    SectionHead + name + SectionBody(entries)
  }

  const SectionHead: string := "### Topic "

  /** What follows a section's name: the way back to the top, the entries one per line, a rule. */
  function SectionBody(entries: seq<string>): (r: string)
    ensures StartsWith(r, "\n")
  {
    "\n[back to top](#topics)\n\n" + Join("\n", entries) + "\n---\n"
  }

  /** All buckets, topic 0 (unknown) first: the `paper_str_group_by_topic` list of
      `render_md_string`. */
  function Buckets(papers: seq<Paper>, n: nat): (r: seq<seq<string>>)
    ensures |r| == n + 1
  {
    seq(n + 1, b requires 0 <= b <= n => Bucket(papers, b))
  }

  /** The topic sections in emission order: topics 1..n ascending, then the unknown topic. */
  function Sections(buckets: seq<seq<string>>): (r: seq<string>)
    requires |buckets| >= 1
    ensures |r| == |buckets|
  {
    seq(|buckets|, k requires 0 <= k < |buckets| =>
      if k + 1 < |buckets| then TopicSection(NatToString(k + 1), buckets[k + 1])
      else TopicSection("unknown", buckets[0]))
  }

  /** The document header with the injected date and the criterion link block. */
  function Header(date: string, links: string): string
  {
    "# Personalized Daily Arxiv Papers " + date
    + "\n\n## Topics\n\nPaper selection prompt and criteria (jump to the section by clicking the link):\n\n"
    + links + "\n---\n"
  }

  const FullListHeading: string := "## Full paper list\n"

  /** Every paper's full entry, in input order. */
  function PaperBlocks(papers: seq<Paper>): (r: seq<string>)
    ensures |r| == |papers|
  {
    seq(|papers|, i requires 0 <= i < |papers| => RenderPaper(papers[i], i))
  }

  /** What `render_md_string` returns or raises for the lines of the criteria file, the
      papers in their iteration order, and the date it stamps. */
  function Document(date: string, lines: seq<string>, papers: seq<Paper>): Result<string, RenderError>
  {
    DocumentFrom(date, FilterCriteria(lines), DeclaredIds(FilterCriteria(lines)), papers)
  }

  /** The same for the topic lines kept by the filter and the id `ds[j]` that `int()` reads from
      line `j`: the first unparsable id wins over any topic out of range, and the first paper
      naming a missing topic is the one reported. */
  function DocumentFrom(date: string, criteria: seq<string>, ds: seq<Option<int>>, papers: seq<Paper>): (r: Result<string, RenderError>)
    requires |ds| == |criteria|
    ensures (r.Failure? && r.error.BadCriterionId?) <==> exists j :: 0 <= j < |ds| && ds[j].None?
    ensures r.Failure? && r.error.BadCriterionId? ==>
              var j := FirstNone(ds, 0);
              j < |criteria| && r.error.line == criteria[j]
    ensures r.Failure? && r.error.TopicOutOfRange? ==>
              var i := r.error.index;
              i < |papers| && r.error.topic == TopicOf(papers[i].comment) > |criteria|
              && forall j :: 0 <= j < i ==> TopicOf(papers[j].comment) <= |criteria|
  {
    match CollectIds(criteria, ds)
    case Failure(line) => Failure(BadCriterionId(line))
    case Success(ids) =>
      var k := FirstStray(papers, |criteria|, 0);
      if k < |papers| then Failure(TopicOutOfRange(k, TopicOf(papers[k].comment)))
      else Success(DocumentText(date, LinkBlock(criteria, ids), Buckets(papers, |criteria|), papers))
  }

  /** The document renders exactly when every topic line's id parses and every paper's topic
      has a bucket. */
  lemma DocumentFromSucceeds(date: string, criteria: seq<string>, ds: seq<Option<int>>, papers: seq<Paper>)
    requires |ds| == |criteria|
    ensures DocumentFrom(date, criteria, ds, papers).Success? <==>
              (forall j :: 0 <= j < |ds| ==> ds[j].Some?)
              && (forall i :: 0 <= i < |papers| ==> TopicOf(papers[i].comment) <= |criteria|)
  {
  }

  /** The text of a document whose criteria and topics all parsed. */
  function DocumentText(date: string, links: string, buckets: seq<seq<string>>, papers: seq<Paper>): string
    requires |buckets| >= 1
  {
    Header(date, links) + Concat(Sections(buckets)) + FullListHeading + Join("\n", PaperBlocks(papers))
  }

  // ---------------------------------------------------------------- the imperative rendering

  /** The buckets after the first `i` papers have been classified. */
  function PartialBuckets(papers: seq<Paper>, n: nat, i: nat): (r: seq<seq<string>>)
    requires i <= |papers|
    ensures |r| == n + 1
  {
    seq(n + 1, b requires 0 <= b <= n => Entries(papers, TopicIndices(Topics(papers)[..i], b)))
  }

  /** Classifying paper `i` appends its entry to its own topic's bucket. */
  lemma PartialBucketsStep(papers: seq<Paper>, n: nat, i: nat)
    requires i < |papers| && TopicOf(papers[i].comment) <= n
    ensures var t := TopicOf(papers[i].comment);
            PartialBuckets(papers, n, i + 1)
            == PartialBuckets(papers, n, i)[t := PartialBuckets(papers, n, i)[t] + [TitleEntry(papers[i], i)]]
  {
    var t := TopicOf(papers[i].comment);
    var before := PartialBuckets(papers, n, i);
    var after := PartialBuckets(papers, n, i + 1);
    assert Topics(papers)[i] == t;
    forall b | 0 <= b <= n
      ensures after[b] == if b == t then before[b] + [TitleEntry(papers[i], i)] else before[b]
    {
      BucketStep(papers, Topics(papers), i, b);
      assert before[b] + [] == before[b];
    }
    assert after == before[t := before[t] + [TitleEntry(papers[i], i)]];
  }

  /** Once every paper is classified the partial buckets are the buckets. */
  lemma PartialBucketsDone(papers: seq<Paper>, n: nat)
    ensures PartialBuckets(papers, n, |papers|) == Buckets(papers, n)
  {
    assert Topics(papers)[..|papers|] == Topics(papers);
  }

  /** The grouping loop of `render_md_string`: one bucket per topic 0..n, each paper's index entry appended to the bucket
      its comment names; a topic beyond `n` raises at the first paper that names one. */
  method GroupByTopic(papers: seq<Paper>, n: nat) returns (r: Result<seq<seq<string>>, RenderError>)
    ensures var k := FirstStray(papers, n, 0);
            if k < |papers| then r == Failure(TopicOutOfRange(k, TopicOf(papers[k].comment)))
            else r == Success(Buckets(papers, n))
  {
    var buckets: seq<seq<string>> := seq(n + 1, _ => []);
    assert buckets == PartialBuckets(papers, n, 0);
    var i := 0;
    while i < |papers|
      invariant i <= |papers|
      invariant FirstStray(papers, n, 0) == FirstStray(papers, n, i)
      invariant buckets == PartialBuckets(papers, n, i)
    {
      var topic := TopicOf(papers[i].comment);
      var entry := TitleEntry(papers[i], i);
      if topic > n {
        return Failure(TopicOutOfRange(i, topic));
      }
      PartialBucketsStep(papers, n, i);
      buckets := buckets[topic := buckets[topic] + [entry]];
      i := i + 1;
    }
    PartialBucketsDone(papers, n);
    r := Success(buckets);
  }

  /** Adding position `i` to the scanned prefix extends exactly the bucket of its topic. */
  lemma BucketStep(papers: seq<Paper>, ts: seq<nat>, i: nat, b: nat)
    requires ts == Topics(papers) && i < |ts|
    ensures Entries(papers, TopicIndices(ts[..i + 1], b))
            == Entries(papers, TopicIndices(ts[..i], b))
               + (if b == ts[i] then [TitleEntry(papers[i], i)] else [])
  {
    assert ts[..i + 1][..i] == ts[..i];
    var ix := TopicIndices(ts[..i], b);
    if b == ts[i] {
      assert TopicIndices(ts[..i + 1], b) == ix + [i];
      assert Entries(papers, ix + [i]) == Entries(papers, ix) + [TitleEntry(papers[i], i)];
    } else {
      assert TopicIndices(ts[..i + 1], b) == ix;
    }
  }

  /** The sections of topics 1..k-1, in ascending order. */
  function NumberedSections(buckets: seq<seq<string>>, k: nat): string
    requires k <= |buckets|
  {
    if k <= 1 then "" else NumberedSections(buckets, k - 1) + TopicSection(NatToString(k - 1), buckets[k - 1])
  }

  /** The numbered sections followed by the unknown topic's are all the sections, in order. */
  lemma {:induction false} NumberedSectionsThenUnknown(buckets: seq<seq<string>>, k: nat)
    requires 1 <= k <= |buckets|
    ensures NumberedSections(buckets, k) == Concat(Sections(buckets)[..k - 1])
  {
    if k > 1 {
      NumberedSectionsThenUnknown(buckets, k - 1);
      ConcatTake(Sections(buckets), k - 2);
    }
  }

  /** The section loop of `render_md_string`: the sections of topics 1..n in ascending order, then the unknown topic's. */
  method RenderSections(buckets: seq<seq<string>>) returns (out: string)
    requires |buckets| >= 1
    ensures out == Concat(Sections(buckets))
  {
    out := "";
    var k := 0;
    while k < |buckets|
      invariant k <= |buckets|
      invariant out == NumberedSections(buckets, k)
    {
      if k != 0 {
        out := out + TopicSection(NatToString(k), buckets[k]);
      }
      k := k + 1;
    }
    SectionsSplit(buckets);
    out := out + TopicSection("unknown", buckets[0]);
  }

  /** All the sections are the numbered ones followed by the unknown topic's. */
  lemma SectionsSplit(buckets: seq<seq<string>>)
    requires |buckets| >= 1
    ensures Concat(Sections(buckets)) == NumberedSections(buckets, |buckets|) + TopicSection("unknown", buckets[0])
  {
    LastSection(buckets);
    ConcatLast(Sections(buckets));
    NumberedSectionsThenUnknown(buckets, |buckets|);
  }

  /** The last section is the unknown topic's, holding bucket 0. */
  lemma LastSection(buckets: seq<seq<string>>)
    requires |buckets| >= 1
    ensures Sections(buckets)[|buckets| - 1] == TopicSection("unknown", buckets[0])
  {
  }

  /** The full list of `render_md_string`: every paper's full entry, numbered by position, joined by blank lines. */
  method RenderFullList(papers: seq<Paper>) returns (out: string)
    ensures out == Join("\n", PaperBlocks(papers))
  {
    var blocks: seq<string> := [];
    var i := 0;
    while i < |papers|
      invariant i <= |papers|
      invariant blocks == PaperBlocks(papers[..i])
    {
      assert PaperBlocks(papers[..i + 1]) == blocks + [RenderPaper(papers[i], i)];
      blocks := blocks + [RenderPaper(papers[i], i)];
      i := i + 1;
    }
    assert papers[..i] == papers;
    out := Join("\n", blocks);
  }

  /** `render_md_string` with the criteria file already read into `lines` and the date given. */
  method RenderMdString(date: string, lines: seq<string>, papers: seq<Paper>) returns (r: Result<string, RenderError>)
    ensures r == Document(date, lines, papers)
  {
    var criteria := FilterCriteria(lines);
    r := RenderFiltered(date, criteria, DeclaredIds(criteria), papers);
  }

  /** The rest of `render_md_string` once the topic lines are kept: the link block (whose loop
      reads each line's id in turn), the header, the buckets, the sections and the full list,
      in that order. */
  method RenderFiltered(date: string, criteria: seq<string>, ds: seq<Option<int>>, papers: seq<Paper>) returns (r: Result<string, RenderError>)
    requires |ds| == |criteria|
    ensures r == DocumentFrom(date, criteria, ds, papers)
  {
    var links := RenderLinks(criteria, ds);
    if links.Failure? {
      return Failure(BadCriterionId(links.error));
    }
    var out := Header(date, links.value);
    var grouped := GroupByTopic(papers, |criteria|);
    if grouped.Failure? {
      return Failure(grouped.error);
    }
    var sections := RenderSections(grouped.value);
    out := out + sections;
    out := out + FullListHeading;
    var full := RenderFullList(papers);
    out := out + full;
    r := Success(out);
  }

  // ---------------------------------------------------------------- properties

  /** Scanning one more topic extends exactly the positions of that topic. */
  lemma TopicIndicesSnoc(ts: seq<nat>, t: nat, k: nat)
    ensures TopicIndices(ts + [t], k) == TopicIndices(ts, k) + (if t == k then [|ts|] else [])
  {
    assert (ts + [t])[..|ts|] == ts;
  }

  /** Appending a paper adds its index entry at the end of its own topic's bucket and leaves
      every other bucket unchanged: buckets keep the input order. */
  lemma BucketSnoc(papers: seq<Paper>, p: Paper, k: nat)
    ensures Bucket(papers + [p], k)
            == Bucket(papers, k) + (if TopicOf(p.comment) == k then [TitleEntry(p, |papers|)] else [])
  {
    var ps := papers + [p];
    var ts := Topics(papers);
    assert Topics(ps) == ts + [TopicOf(p.comment)];
    TopicIndicesSnoc(ts, TopicOf(p.comment), k);
    var ix := TopicIndices(ts, k);
    assert Entries(ps, ix) == Entries(papers, ix);
    if TopicOf(p.comment) == k {
      assert Entries(ps, ix + [|papers|]) == Entries(ps, ix) + [TitleEntry(p, |papers|)];
    }
  }

  /** A paper's index entry lies in bucket `k` exactly when its comment names topic `k`:
      every entry lands in one bucket and one only. */
  lemma EntryInBucketIff(papers: seq<Paper>, i: nat, k: nat)
    requires i < |papers|
    ensures TitleEntry(papers[i], i) in Bucket(papers, k) <==> TopicOf(papers[i].comment) == k
  {
    var ts := Topics(papers);
    var ix := TopicIndices(ts, k);
    var entries := Bucket(papers, k);
    TopicIndicesSpec(ts, k);
    if TopicOf(papers[i].comment) == k {
      assert ts[i] == k;
      var j :| 0 <= j < |ix| && ix[j] == i;
      assert entries[j] == TitleEntry(papers[i], i);
    }
    if TitleEntry(papers[i], i) in entries {
      var j :| 0 <= j < |entries| && entries[j] == TitleEntry(papers[i], i);
      if ix[j] != i {
        EntriesDistinct(papers[ix[j]], papers[i], ix[j], i);
      }
      assert ix[j] in ix;
    }
  }

  /** The number of entries in buckets 0..m-1 together. */
  function BucketTotal(papers: seq<Paper>, m: nat): nat
  {
    if m == 0 then 0 else BucketTotal(papers, m - 1) + |Bucket(papers, m - 1)|
  }

  /** The number of positions of topics 0..m-1 together. */
  function IndexTotal(ts: seq<nat>, m: nat): nat
  {
    if m == 0 then 0 else IndexTotal(ts, m - 1) + |TopicIndices(ts, m - 1)|
  }

  lemma {:induction false} BucketTotalIsIndexTotal(papers: seq<Paper>, m: nat)
    ensures BucketTotal(papers, m) == IndexTotal(Topics(papers), m)
  {
    if m > 0 {
      BucketTotalIsIndexTotal(papers, m - 1);
    }
  }

  /** Scanning one more topic adds one position below `m` when that topic is below `m`. */
  lemma {:induction false} IndexTotalSnoc(ts: seq<nat>, t: nat, m: nat)
    ensures IndexTotal(ts + [t], m) == IndexTotal(ts, m) + (if t < m then 1 else 0)
  {
    if m > 0 {
      IndexTotalSnoc(ts, t, m - 1);
      TopicIndicesSnoc(ts, t, m - 1);
    }
  }

  /** When every topic is below `m`, topics 0..m-1 together account for every position. */
  lemma {:induction false} IndexTotalOfBounded(ts: seq<nat>, m: nat)
    requires forall i :: 0 <= i < |ts| ==> ts[i] < m
    ensures IndexTotal(ts, m) == |ts|
  {
    if ts == [] {
      IndexTotalOfEmpty(m);
    } else {
      var init := ts[..|ts| - 1];
      assert ts == init + [ts[|ts| - 1]];
      IndexTotalOfBounded(init, m);
      IndexTotalSnoc(init, ts[|ts| - 1], m);
    }
  }

  lemma {:induction false} IndexTotalOfEmpty(m: nat)
    ensures IndexTotal([], m) == 0
  {
    if m > 0 {
      IndexTotalOfEmpty(m - 1);
    }
  }

  /** When every topic has a bucket, the buckets together hold exactly one entry per paper. */
  lemma BucketsCoverAllPapers(papers: seq<Paper>, n: nat)
    requires forall i :: 0 <= i < |papers| ==> TopicOf(papers[i].comment) <= n
    ensures BucketTotal(papers, n + 1) == |papers|
  {
    BucketTotalIsIndexTotal(papers, n + 1);
    IndexTotalOfBounded(Topics(papers), n + 1);
  }

  /** Section `k` is headed by topic number k+1 for every bucket but topic 0's, whose section
      comes last and is headed "unknown": topics appear in ascending order. */
  lemma SectionHeadings(buckets: seq<seq<string>>, k: nat)
    requires 1 <= |buckets| && k < |buckets|
    ensures k + 1 < |buckets| ==>
              StartsWith(Sections(buckets)[k], SectionHead)
              && LeadingNumber(Sections(buckets)[k][|SectionHead|..]) == k + 1
    ensures k + 1 == |buckets| ==> StartsWith(Sections(buckets)[k], "### Topic unknown\n")
  {
    if k + 1 < |buckets| {
      var body := SectionBody(buckets[k + 1]);
      AppendAssoc(SectionHead, NatToString(k + 1), body);
      IndexAfterMarker(Sections(buckets)[k], SectionHead, k + 1, body);
    } else {
      var body := SectionBody(buckets[0]);
      var sec := Sections(buckets)[k];
      assert sec == SectionHead + "unknown" + body;
      assert body == "\n" + body[1..];
      AppendAssoc(SectionHead + "unknown", "\n", body[1..]);
      assert SectionHead + "unknown" + "\n" == "### Topic unknown\n";
      assert sec == "### Topic unknown\n" + body[1..];
      PrefixStartsWith("### Topic unknown\n", body[1..]);
    }
  }

  /** When the topic lines are numbered 1..N in order, the link of line `i` targets the number
      that heads section `i`. */
  lemma LinksMatchSections(criteria: seq<string>, ids: seq<int>, buckets: seq<seq<string>>, i: nat)
    requires |ids| == |criteria| && |buckets| == |criteria| + 1 && i < |criteria|
    requires ids[i] == i + 1
    ensures var link := Links(criteria, ids)[i];
            var head := "[" + criteria[i] + "](#topic-";
            var section := Sections(buckets)[i];
            StartsWith(link, head) && StartsWith(section, SectionHead)
            && LeadingNumber(link[|head|..]) == LeadingNumber(section[|SectionHead|..])
  {
    LinkTarget(criteria[i], ids[i]);
    SectionHeadings(buckets, i);
  }

  /** Appending a paper appends its full entry, numbered by its position, after a line break. */
  lemma FullListSnoc(papers: seq<Paper>, p: Paper)
    requires papers != []
    ensures Join("\n", PaperBlocks(papers + [p]))
            == Join("\n", PaperBlocks(papers)) + "\n" + RenderPaper(p, |papers|)
  {
    assert PaperBlocks(papers + [p]) == PaperBlocks(papers) + [RenderPaper(p, |papers|)];
    JoinSnoc("\n", PaperBlocks(papers), RenderPaper(p, |papers|));
  }

  /** With no papers every bucket is empty, so each topic's section is its heading, the way back
      to the top, a blank line and the rule. */
  lemma NoPapersEmptySections(n: nat)
    ensures forall k :: 0 <= k <= n ==> Buckets([], n)[k] == []
    ensures SectionBody([]) == "\n[back to top](#topics)\n\n\n---\n"
  {
    forall k | 0 <= k <= n
      ensures Buckets([], n)[k] == []
    {
      assert TopicIndices(Topics([]), k) == [];
    }
  }

  /** With no papers and well-formed criteria the document still renders, and it ends with the
      full list's heading and nothing after it. */
  lemma DocumentOfNoPapers(date: string, criteria: seq<string>, ds: seq<Option<int>>)
    requires |ds| == |criteria| && forall j :: 0 <= j < |ds| ==> ds[j].Some?
    ensures DocumentFrom(date, criteria, ds, []).Success?
    ensures EndsWith(DocumentFrom(date, criteria, ds, []).value, FullListHeading)
  {
    DocumentFromSucceeds(date, criteria, ds, []);
    var ids := CollectIds(criteria, ds).value;
    var head := Header(date, LinkBlock(criteria, ids)) + Concat(Sections(Buckets([], |criteria|)));
    assert PaperBlocks([]) == [];
    assert DocumentFrom(date, criteria, ds, []).value == head + FullListHeading + "";
    assert head + FullListHeading + "" == head + FullListHeading;
  }

  /** Two topic lines, as kept by the filter, with arbitrary descriptions, and two papers, the
      first commented "meets criterion 1" and the second without a comment: the document renders. */
  lemma ExampleRenders(date: string, d1: string, d2: string, p1: Paper, p2: Paper)
    requires p1.comment == Some("meets criterion 1") && p2.comment.None?
    ensures var criteria := ["1. " + d1, "2. " + d2];
            DocumentFrom(date, criteria, DeclaredIds(criteria), [p1, p2]).Success?
  {
    var criteria := ["1. " + d1, "2. " + d2];
    ExampleCriteria(d1, d2);
    ExampleComment();
    DocumentFromSucceeds(date, criteria, DeclaredIds(criteria), [p1, p2]);
  }

  /** A criterion line opening with the separator 0x1C passes the filter, but `int()` rejects
      its id, so the digest is not rendered whatever the papers are. */
  lemma ExampleSeparatorRaises(date: string, papers: seq<Paper>)
    ensures Document(date, ["\U{1C}1. x"], papers) == Failure(BadCriterionId("\U{1C}1. x"))
  {
    var line := "\U{1C}1. x";
    ExampleSeparatorBeforeId();
    FilterCriteriaOrder([], [], line);
    assert FilterCriteria([line]) == [line];
    assert DeclaredIds([line]) == [None];
    CollectIdsOfFirstNone([line], [None], 0);
  }

  /** Criteria numbered 1 and 2 declare topics 1 and 2. */
  lemma ExampleCriteria(d1: string, d2: string)
    ensures forall j :: 0 <= j < 2 ==> DeclaredIds(["1. " + d1, "2. " + d2])[j].Some?
  {
    var criteria := ["1. " + d1, "2. " + d2];
    assert IntToString(1) == "1" && IntToString(2) == "2";
    assert criteria[0] == IntToString(1) + "." + (" " + d1);
    assert criteria[1] == IntToString(2) + "." + (" " + d2);
    ParseTopicIdOfNumberedLine(1, " " + d1);
    ParseTopicIdOfNumberedLine(2, " " + d2);
  }

  /** The example's comment names topic 1. */
  lemma ExampleComment()
    ensures TopicOf(Some("meets criterion 1")) == 1
  {
    assert NatToString(1) == "1";
    assert "meets criterion 1" == "meets " + Marker + NatToString(1) + "";
    TopicOfMarkedComment("meets ", 1, "");
  }

  /** In that example topic 1 holds the first paper's entry alone, topic 2 is empty, and the
      unknown topic holds the second paper's entry alone. */
  lemma ExampleBuckets(p1: Paper, p2: Paper)
    requires p1.comment == Some("meets criterion 1") && p2.comment.None?
    ensures Bucket([p1, p2], 1) == [TitleEntry(p1, 0)]
    ensures Bucket([p1, p2], 2) == []
    ensures Bucket([p1, p2], 0) == [TitleEntry(p2, 1)]
  {
    ExampleComment();
    TwoPaperBuckets(p1, p2);
  }

  /** Two papers classified under topics 1 and 0 fill exactly those two buckets. */
  lemma TwoPaperBuckets(p1: Paper, p2: Paper)
    requires TopicOf(p1.comment) == 1 && TopicOf(p2.comment) == 0
    ensures forall k :: Bucket([p1, p2], k)
              == (if k == 1 then [TitleEntry(p1, 0)] else []) + (if k == 0 then [TitleEntry(p2, 1)] else [])
  {
    forall k
      ensures Bucket([p1, p2], k)
              == (if k == 1 then [TitleEntry(p1, 0)] else []) + (if k == 0 then [TitleEntry(p2, 1)] else [])
    {
      assert TopicIndices(Topics([]), k) == [];
      BucketSnoc([], p1, k);
      assert [] + [p1] == [p1];
      BucketSnoc([p1], p2, k);
      assert [p1] + [p2] == [p1, p2];
    }
  }

  /** The full list of two papers is the first's entry, a line break, the second's entry: both
      in input order. */
  lemma ExampleFullList(p1: Paper, p2: Paper)
    ensures Join("\n", PaperBlocks([p1, p2])) == RenderPaper(p1, 0) + "\n" + RenderPaper(p2, 1)
  {
    assert PaperBlocks([p1, p2]) == [RenderPaper(p1, 0)] + [RenderPaper(p2, 1)];
    JoinSnoc("\n", [RenderPaper(p1, 0)], RenderPaper(p2, 1));
  }
}

=== FILE: papers.dfy ===
/** Paper records and the two per-paper renderings: the full entry and the one-line index entry. */
module Papers {
  import opened Wrappers
  import opened Text
  import opened Seqs
  import opened Slugs
  import Criteria

  /** One scored paper record. The four keys the renderer reads unconditionally are fields
      (`summary` holds the `abstract` key, a reserved word here);
      the optional keys `COMMENT`, `RELEVANCE` and `NOVELTY` are `Option`s. */
  datatype Paper = Paper(
    arxivId: string,
    title: string,
    authors: seq<string>,
    summary: string,
    comment: Option<string>,
    relevance: Option<int>,
    novelty: Option<int>)

  function ArxivUrl(arxivId: string): string { "https://arxiv.org/abs/" + arxivId }

  function AuthorList(authors: seq<string>): string { Join(", ", authors) }

  const CommentLabel: string := "**Comment:** "
  const RelevanceLabel: string := "**Relevance:** "
  const NoveltyLabel: string := "**Novelty:** "
  const BackToTop: string := "[back to top](#topics)\n"
  const Rule: string := "\n---\n"

  /** The heading of a full entry without its line break: `## <idx>. [<title>](<url>)`. */
  function HeadingText(p: Paper, idx: nat): string
  {
    "## " + NatToString(idx) + HeadingAfterIndex(p)
  }

  /** What follows the index in the heading: `. [<title>](<url>)`. */
  function HeadingAfterIndex(p: Paper): string
  {
    ". [" + p.title + "](" + ArxivUrl(p.arxivId) + ")"
  }

  // ---------------------------------------------------------------- render_paper

  /** The pieces `render_paper` appends, in order. */
  function PaperLines(p: Paper, idx: nat): (lines: seq<string>)
  {
    OpeningLines(p, idx) + OptionalLines(p) + [BackToTop, Rule]
  }

  /** The heading and the three lines every entry has. */
  function OpeningLines(p: Paper, idx: nat): seq<string>
  {
    [ HeadingText(p, idx) + "\n",
      "**ArXiv:** " + p.arxivId + "\n",
      "**Authors:** " + AuthorList(p.authors) + "\n\n",
      "**Abstract:** " + p.summary + "\n\n" ]
  }

  /** The comment line when `COMMENT` is present; both score lines when both scores are. */
  function OptionalLines(p: Paper): seq<string>
  {
    (match p.comment
     case Some(c) => [CommentLabel + c + "\n\n"]
     case None => [])
    + ScoreLines(p)
  }

  /** Both score lines when both scores are present, otherwise none (both-or-neither). */
  function ScoreLines(p: Paper): seq<string>
  {
    if p.relevance.Some? && p.novelty.Some?
    then [RelevanceLabel + IntToString(p.relevance.value) + "\n",
          NoveltyLabel + IntToString(p.novelty.value) + "\n"]
    else []
  }

  /** `render_paper`: the full entry of the paper at position `idx`. */
  function RenderPaper(p: Paper, idx: nat): string
  {
    Concat(PaperLines(p, idx))
  }

  /** The full entry always opens with its heading and closes with the link back to the
      topic list and a horizontal rule. */
  lemma RenderPaperShape(p: Paper, idx: nat)
    ensures StartsWith(RenderPaper(p, idx), HeadingText(p, idx) + "\n")
    ensures EndsWith(RenderPaper(p, idx), "[back to top](#topics)\n\n---\n")
  {
    var lines := PaperLines(p, idx);
    var front := OpeningLines(p, idx) + OptionalLines(p);
    ConcatAppend(front, [BackToTop, Rule]);
    ConcatPair(BackToTop, Rule);
    var ending := BackToTop + Rule;
    assert ending == "[back to top](#topics)\n\n---\n";
    var r := Concat(lines);
    assert r == Concat(front) + ending;
    assert r[|r| - |ending|..] == ending;
    assert lines[0] == HeadingText(p, idx) + "\n";
    assert Concat(lines) == lines[0] + Concat(lines[1..]);
  }

  // ---------------------------------------------------------------- reading fields back

  /** The rest of the first piece that starts with `tag`, if any piece does. */
  function FieldOf(lines: seq<string>, tag: string): (r: Option<string>)
  {
    if lines == [] then None
    else if StartsWith(lines[0], tag) then Some(lines[0][|tag|..])
    else FieldOf(lines[1..], tag)
  }

  /** No piece carries the tag, so no field is found. */
  lemma {:induction false} FieldOfNone(lines: seq<string>, tag: string)
    requires forall k :: 0 <= k < |lines| ==> !StartsWith(lines[k], tag)
    ensures FieldOf(lines, tag) == None
  {
    if lines != [] {
      FieldOfNone(lines[1..], tag);
    }
  }

  lemma {:induction false} FieldOfAppend(a: seq<string>, b: seq<string>, tag: string)
    ensures FieldOf(a + b, tag) == if FieldOf(a, tag).Some? then FieldOf(a, tag) else FieldOf(b, tag)
  {
    if a != [] {
      assert (a + b)[0] == a[0];
      assert (a + b)[1..] == a[1..] + b;
      FieldOfAppend(a[1..], b, tag);
    } else {
      assert a + b == b;
    }
  }

  /** `s` without its last `k` characters (the line break a field line ends with). */
  function DropEnd(s: string, k: nat): string
  {
    if |s| < k then s else s[..|s| - k]
  }

  /** The comment a rendered entry shows, if it shows one. */
  function CommentShown(lines: seq<string>): Option<string>
  {
    match FieldOf(lines, CommentLabel)
    case None => None
    case Some(t) => Some(DropEnd(t, 2))
  }

  /** The relevance and novelty a rendered entry shows, when it shows both. */
  function ScoresShown(lines: seq<string>): Option<(int, int)>
  {
    match (FieldOf(lines, RelevanceLabel), FieldOf(lines, NoveltyLabel))
    case (Some(r), Some(n)) =>
      (match (Criteria.ParseInt(DropEnd(r, 1)), Criteria.ParseInt(DropEnd(n, 1)))
       case (Some(rv), Some(nv)) => Some((rv, nv))
       case _ => None)
    case _ => None
  }

  /** `s` starts with `a`, and `a` and `b` differ at a position both have: so `s` does not
      start with `b`. */
  lemma NotBoth(s: string, a: string, b: string, i: nat)
    requires i < |a| && i < |b| && a[i] != b[i]
    requires StartsWith(s, a)
    ensures !StartsWith(s, b)
  {
  }

  lemma StartsWithPrefix(a: string, rest: string)
    ensures StartsWith(a + rest, a)
  {
    assert (a + rest)[..|a|] == a;
  }

  /** A piece that opens with `head` does not start with a tag that differs from `head`
      at position `i`. */
  lemma PieceLacksTag(head: string, rest: string, tag: string, i: nat)
    requires i < |head| && i < |tag| && head[i] != tag[i]
    ensures !StartsWith(head + rest, tag)
  {
    StartsWithPrefix(head, rest);
    NotBoth(head + rest, head, tag, i);
  }

  /** None of the four opening lines carries a tag that starts with `*` and has no `A`
      as its third character, as the optional labels do. */
  lemma OpeningLinesCarryNoTag(p: Paper, idx: nat, tag: string)
    requires |tag| > 2 && tag[0] == '*' && tag[2] != 'A'
    ensures forall k :: 0 <= k < |OpeningLines(p, idx)| ==> !StartsWith(OpeningLines(p, idx)[k], tag)
  {
    var lines := OpeningLines(p, idx);
    assert !StartsWith(lines[0], tag) by {
      assert lines[0] == "## " + (NatToString(idx) + ". [" + p.title + "](" + ArxivUrl(p.arxivId) + ")\n");
      PieceLacksTag("## ", NatToString(idx) + ". [" + p.title + "](" + ArxivUrl(p.arxivId) + ")\n", tag, 0);
    }
    assert !StartsWith(lines[1], tag) by {
      PieceLacksTag("**ArXiv:** ", p.arxivId + "\n", tag, 2);
    }
    assert !StartsWith(lines[2], tag) by {
      assert lines[2] == "**Authors:** " + (AuthorList(p.authors) + "\n\n");
      PieceLacksTag("**Authors:** ", AuthorList(p.authors) + "\n\n", tag, 2);
    }
    assert !StartsWith(lines[3], tag) by {
      assert lines[3] == "**Abstract:** " + (p.summary + "\n\n");
      PieceLacksTag("**Abstract:** ", p.summary + "\n\n", tag, 2);
    }
  }

  /** Neither closing line carries one of the optional labels. */
  lemma ClosingLinesCarryNoTag(tag: string)
    requires |tag| > 2 && tag[0] == '*' 
    ensures FieldOf([BackToTop, Rule], tag) == None
  {
    StartsWithPrefix("[", "back to top](#topics)\n");
    NotBoth(BackToTop, "[", tag, 0);
    StartsWithPrefix("\n", "---\n");
    NotBoth(Rule, "\n", tag, 0);
    FieldOfNone([BackToTop, Rule], tag);
  }

  /** A field tagged like the optional labels can only come from the optional lines. */
  lemma FieldOfPaper(p: Paper, idx: nat, tag: string)
    requires |tag| > 2 && tag[0] == '*' && tag[2] != 'A'
    ensures FieldOf(PaperLines(p, idx), tag) == FieldOf(OptionalLines(p), tag)
  {
    var opening := OpeningLines(p, idx);
    OpeningLinesCarryNoTag(p, idx, tag);
    FieldOfNone(opening, tag);
    ClosingLinesCarryNoTag(tag);
    FieldOfAppend(opening + OptionalLines(p), [BackToTop, Rule], tag);
    FieldOfAppend(opening, OptionalLines(p), tag);
  }

  /** A comment line appears exactly when `COMMENT` is present, and it shows that comment. */
  lemma CommentShownRoundTrip(p: Paper, idx: nat)
    ensures CommentShown(PaperLines(p, idx)) == p.comment
  {
    LabelShapes();
    FieldOfPaper(p, idx, CommentLabel);
    OptionalCommentField(p);
  }

  /** Relevance and novelty lines appear exactly when both scores are present, and they
      show those scores: a single score shows neither line. */
  lemma ScoresShownRoundTrip(p: Paper, idx: nat)
    ensures FieldOf(PaperLines(p, idx), RelevanceLabel).Some? <==> p.relevance.Some? && p.novelty.Some?
    ensures FieldOf(PaperLines(p, idx), NoveltyLabel).Some? <==> p.relevance.Some? && p.novelty.Some?
    ensures ScoresShown(PaperLines(p, idx))
            == if p.relevance.Some? && p.novelty.Some?
               then Some((p.relevance.value, p.novelty.value))
               else None
  {
    LabelShapes();
    FieldOfPaper(p, idx, RelevanceLabel);
    FieldOfPaper(p, idx, NoveltyLabel);
    OptionalScoreFields(p);
    if p.relevance.Some? && p.novelty.Some? {
      var r, n := IntToString(p.relevance.value), IntToString(p.novelty.value);
      assert DropEnd(r + "\n", 1) == r;
      assert DropEnd(n + "\n", 1) == n;
      Criteria.ParseIntOfIntToString(p.relevance.value);
      Criteria.ParseIntOfIntToString(p.novelty.value);
    }
  }

  /** Within the optional lines, each score label tags exactly its own score line. */
  lemma OptionalScoreFields(p: Paper)
    ensures FieldOf(OptionalLines(p), RelevanceLabel)
            == if p.relevance.Some? && p.novelty.Some?
               then Some(IntToString(p.relevance.value) + "\n") else None
    ensures FieldOf(OptionalLines(p), NoveltyLabel)
            == if p.relevance.Some? && p.novelty.Some?
               then Some(IntToString(p.novelty.value) + "\n") else None
  {
    LabelShapes();
    var comments := match p.comment case Some(c) => [CommentLabel + c + "\n\n"] case None => [];
    var scores := ScoreLines(p);
    assert OptionalLines(p) == comments + scores;
    if p.comment.Some? {
      assert comments[0] == CommentLabel + (p.comment.value + "\n\n");
      PieceLacksTag(CommentLabel, p.comment.value + "\n\n", RelevanceLabel, 2);
      PieceLacksTag(CommentLabel, p.comment.value + "\n\n", NoveltyLabel, 2);
    }
    FieldOfNone(comments, RelevanceLabel);
    FieldOfNone(comments, NoveltyLabel);
    FieldOfAppend(comments, scores, RelevanceLabel);
    FieldOfAppend(comments, scores, NoveltyLabel);
    if p.relevance.Some? && p.novelty.Some? {
      var rv, nv := IntToString(p.relevance.value) + "\n", IntToString(p.novelty.value) + "\n";
      assert RelevanceLabel + IntToString(p.relevance.value) + "\n" == RelevanceLabel + rv;
      assert NoveltyLabel + IntToString(p.novelty.value) + "\n" == NoveltyLabel + nv;
      assert scores == [RelevanceLabel + rv, NoveltyLabel + nv];
      StartsWithPrefix(RelevanceLabel, rv);
      assert (RelevanceLabel + rv)[|RelevanceLabel|..] == rv;
      PieceLacksTag(RelevanceLabel, rv, NoveltyLabel, 2);
      StartsWithPrefix(NoveltyLabel, nv);
      assert (NoveltyLabel + nv)[|NoveltyLabel|..] == nv;
      assert [RelevanceLabel + rv, NoveltyLabel + nv][1..] == [NoveltyLabel + nv];
    } else {
      FieldOfNone(scores, RelevanceLabel);
      FieldOfNone(scores, NoveltyLabel);
    }
  }

  /** The optional labels open with `*` and differ from each other and from the fixed
      labels at their third character. */
  lemma LabelShapes()
    ensures |CommentLabel| > 2 && CommentLabel[0] == '*' && CommentLabel[2] == 'C'
    ensures |RelevanceLabel| > 2 && RelevanceLabel[0] == '*' && RelevanceLabel[2] == 'R'
    ensures |NoveltyLabel| > 2 && NoveltyLabel[0] == '*' && NoveltyLabel[2] == 'N'
  {
  }

  lemma OptionalCommentField(p: Paper)
    ensures FieldOf(OptionalLines(p), CommentLabel)
            == if p.comment.Some? then Some(p.comment.value + "\n\n") else None
  {
    var scores := ScoreLines(p);
    LabelShapes();
    ScoreLinesField(p);
    if p.comment.Some? {
      var line := CommentLabel + p.comment.value + "\n\n";
      assert line == CommentLabel + (p.comment.value + "\n\n");
      StartsWithPrefix(CommentLabel, p.comment.value + "\n\n");
      assert line[|CommentLabel|..] == p.comment.value + "\n\n";
      assert OptionalLines(p) == [line] + scores;
    } else {
      assert OptionalLines(p) == scores;
    }
  }

  /** The score lines carry no comment tag. */
  lemma ScoreLinesField(p: Paper)
    ensures FieldOf(ScoreLines(p), CommentLabel) == None
  {
    var tag, i := CommentLabel, 2;
    if !(p.relevance.Some? && p.novelty.Some?) {
      FieldOfNone([], tag);
    }
    if p.relevance.Some? && p.novelty.Some? {
      assert 2 < |RelevanceLabel| && 2 < |NoveltyLabel|;
      var r := RelevanceLabel + IntToString(p.relevance.value) + "\n";
      var n := NoveltyLabel + IntToString(p.novelty.value) + "\n";
      StartsWithPrefix(RelevanceLabel, IntToString(p.relevance.value) + "\n");
      assert r == RelevanceLabel + (IntToString(p.relevance.value) + "\n");
      NotBoth(r, RelevanceLabel, tag, i);
      StartsWithPrefix(NoveltyLabel, IntToString(p.novelty.value) + "\n");
      assert n == NoveltyLabel + (IntToString(p.novelty.value) + "\n");
      NotBoth(n, NoveltyLabel, tag, i);
      FieldOfNone([r, n], tag);
    }
  }

  // ---------------------------------------------------------------- render_title_and_author

  /** `[[More](#<anchor>)]`: the link from an index entry to the paper's full entry. */
  function MoreLink(anchor: string): string
  {
    "[[More](#" + anchor + ")]"
  }

  /** `render_title_and_author`: the index line with its "More" link, then the authors. */
  function TitleEntry(p: Paper, idx: nat): string
  {
    NatToString(idx) + EntryAfterIndex(p, idx)
  }

  /** What follows the index in an index entry: the title link, the "More" link, the authors. */
  function EntryAfterIndex(p: Paper, idx: nat): string
  {
    ". [" + p.title + "](" + ArxivUrl(p.arxivId) + ") "
    + MoreLink(Slug(idx, p.title)) + " \\\n"
    + "**Authors:** " + AuthorList(p.authors) + "\n"
  }

  /** The "More" link of an index entry targets the index, a dash, and the anchor of the
      title, which is made of lower-case letters, digits and dashes only. */
  lemma TitleEntryMoreLink(p: Paper, idx: nat)
    ensures TitleEntry(p, idx)
            == NatToString(idx) + (". [" + p.title + "](" + ArxivUrl(p.arxivId) + ") "
               + MoreLink(NatToString(idx) + "-" + Anchor(p.title)) + " \\\n"
               + "**Authors:** " + AuthorList(p.authors) + "\n")
    ensures forall i :: 0 <= i < |Slug(idx, p.title)| ==> AnchorChar(Slug(idx, p.title)[i])
  {
    SlugStartsWithIndex(idx, p.title);
  }

  /** An index entry starts with the decimal index of its paper. */
  lemma TitleEntryIndex(p: Paper, idx: nat)
    ensures LeadingNumber(TitleEntry(p, idx)) == idx
  {
    var tail := EntryAfterIndex(p, idx);
    assert tail[0] == '.';
    LeadingNumberOfNatToString(idx, tail);
  }

  /** A full entry's heading, after `## `, starts with the decimal index of its paper. */
  lemma RenderPaperIndex(p: Paper, idx: nat)
    ensures |RenderPaper(p, idx)| >= 3 && RenderPaper(p, idx)[..3] == "## "
    ensures LeadingNumber(RenderPaper(p, idx)[3..]) == idx
  {
    var tail := HeadingAfterIndex(p) + "\n";
    assert tail[0] == '.';
    RenderPaperShape(p, idx);
    AppendAssoc("## " + NatToString(idx), HeadingAfterIndex(p), "\n");
    AppendAssoc("## ", NatToString(idx), tail);
    IndexAfterMarker(RenderPaper(p, idx), "## ", idx, tail);
  }

  /** Papers at different positions get different index entries and different full entries. */
  lemma EntriesDistinct(p: Paper, q: Paper, i: nat, j: nat)
    requires i != j
    ensures TitleEntry(p, i) != TitleEntry(q, j)
    ensures RenderPaper(p, i) != RenderPaper(q, j)
  {
    TitleEntryIndex(p, i);
    TitleEntryIndex(q, j);
    RenderPaperIndex(p, i);
    RenderPaperIndex(q, j);
  }
}

=== FILE: seqs.dfy ===
/** Generic sequence operations used by the text pipeline: filtering, counting and joining. */
module Seqs {

  /** The elements of `s` that satisfy `p`, in their original order. */
  function Filter<T>(p: T -> bool, s: seq<T>): (r: seq<T>)
    ensures |r| <= |s|
  {
    if s == [] then [] else (if p(s[0]) then [s[0]] else []) + Filter(p, s[1..])
  }

  /** The filter keeps elements of `s` that satisfy `p` only, and it keeps every such element. */
  lemma {:induction false} FilterMembers<T>(p: T -> bool, s: seq<T>)
    ensures forall i :: 0 <= i < |Filter(p, s)| ==> p(Filter(p, s)[i])
    ensures forall x :: x in Filter(p, s) ==> x in s
    ensures forall i :: 0 <= i < |s| && p(s[i]) ==> s[i] in Filter(p, s)
  {
    if s != [] {
      FilterMembers(p, s[1..]);
      var head := if p(s[0]) then [s[0]] else [];
      assert Filter(p, s) == head + Filter(p, s[1..]);
      forall i | 0 <= i < |s| && p(s[i])
        ensures s[i] in Filter(p, s)
      {
        if i > 0 {
          assert s[i] == s[1..][i - 1];
        }
      }
    }
  }

  /** The number of positions of `s` whose element satisfies `p`, counted from the back. */
  function Count<T>(p: T -> bool, s: seq<T>): nat
  {
    if s == [] then 0 else Count(p, s[..|s| - 1]) + (if p(s[|s| - 1]) then 1 else 0)
  }

  /** Filtering distributes over concatenation: the kept elements of `a` come before those of `b`. */
  lemma {:induction false} FilterAppend<T>(p: T -> bool, a: seq<T>, b: seq<T>)
    ensures Filter(p, a + b) == Filter(p, a) + Filter(p, b)
  {
    if a == [] {
      assert a + b == b;
    } else {
      var head := if p(a[0]) then [a[0]] else [];
      assert (a + b)[0] == a[0];
      assert (a + b)[1..] == a[1..] + b;
      assert Filter(p, a + b) == head + Filter(p, a[1..] + b);
      FilterAppend(p, a[1..], b);
      AppendAssoc(head, Filter(p, a[1..]), Filter(p, b));
    }
  }

  /** A one-element sequence is kept exactly when its element satisfies `p`. */
  lemma FilterSingleton<T>(p: T -> bool, x: T)
    ensures Filter(p, [x]) == if p(x) then [x] else []
  {
    assert [x][1..] == [];
  }

  /** The filter keeps exactly as many elements as `Count` finds. */
  lemma {:induction false} FilterLength<T>(p: T -> bool, s: seq<T>)
    ensures |Filter(p, s)| == Count(p, s)
  {
    if s != [] {
      var init, last := s[..|s| - 1], s[|s| - 1];
      assert s == init + [last];
      FilterAppend(p, init, [last]);
      FilterSingleton(p, last);
      FilterLength(p, init);
    }
  }

  /** A sequence whose elements all satisfy `p` passes through the filter unchanged. */
  lemma {:induction false} FilterAllKept<T>(p: T -> bool, s: seq<T>)
    requires forall i :: 0 <= i < |s| ==> p(s[i])
    ensures Filter(p, s) == s
  {
    if s != [] {
      FilterAllKept(p, s[1..]);
      assert s == [s[0]] + s[1..];
    }
  }

  /** Concatenation of all the parts, in order (Python's `"".join`). */
  function Concat<T>(parts: seq<seq<T>>): seq<T>
  {
    if parts == [] then [] else parts[0] + Concat(parts[1..])
  }

  /** Concatenating a split list of parts is concatenating the two halves. */
  lemma {:induction false} ConcatAppend<T>(a: seq<seq<T>>, b: seq<seq<T>>)
    ensures Concat(a + b) == Concat(a) + Concat(b)
  {
    if a == [] {
      assert a + b == b;
    } else {
      assert (a + b)[0] == a[0];
      assert (a + b)[1..] == a[1..] + b;
      ConcatAppend(a[1..], b);
    }
  }

  /** Appending one part appends its text. */
  lemma ConcatSnoc<T>(a: seq<seq<T>>, x: seq<T>)
    ensures Concat(a + [x]) == Concat(a) + x
  {
    ConcatAppend(a, [x]);
    assert [x][1..] == [];
  }

  lemma AppendAssoc<T>(a: seq<T>, b: seq<T>, c: seq<T>)
    ensures a + b + c == a + (b + c)
  {
  }

  /** A text starts with anything it was built by appending to. */
  lemma PrefixStartsWith<T>(a: seq<T>, b: seq<T>)
    ensures |a| <= |a + b| && (a + b)[..|a|] == a
  {
  }

  /** One more part taken from a list adds that part's text at the end. */
  lemma ConcatTake<T>(parts: seq<seq<T>>, k: nat)
    requires k < |parts|
    ensures Concat(parts[..k + 1]) == Concat(parts[..k]) + parts[k]
  {
    assert parts[..k + 1] == parts[..k] + [parts[k]];
    ConcatSnoc(parts[..k], parts[k]);
  }

  /** The last part comes last in the concatenation. */
  lemma ConcatLast<T>(parts: seq<seq<T>>)
    requires |parts| >= 1
    ensures Concat(parts) == Concat(parts[..|parts| - 1]) + parts[|parts| - 1]
  {
    ConcatTake(parts, |parts| - 1);
    assert parts[..|parts|] == parts;
  }

  lemma ConcatPair<T>(a: seq<T>, b: seq<T>)
    ensures Concat([a, b]) == a + b
  {
    assert [a, b][1..] == [b];
    assert [b][1..] == [];
    assert Concat([b]) == b + Concat<T>([]);
    assert Concat([b]) == b;
  }

  /** The parts separated by `sep` (Python's `sep.join(parts)`). */
  function Join<T>(sep: seq<T>, parts: seq<seq<T>>): seq<T>
  {
    if parts == [] then []
    else if |parts| == 1 then parts[0]
    else parts[0] + sep + Join(sep, parts[1..])
  }

  /** Appending one part to a non-empty list appends the separator and the part. */
  lemma {:induction false} JoinSnoc<T>(sep: seq<T>, parts: seq<seq<T>>, x: seq<T>)
    requires parts != []
    ensures Join(sep, parts + [x]) == Join(sep, parts) + sep + x
  {
    if |parts| == 1 {
      assert (parts + [x])[1..] == [x];
    } else {
      assert (parts + [x])[1..] == parts[1..] + [x];
      JoinSnoc(sep, parts[1..], x);
    }
  }
}

=== FILE: slug.dfy ===
/** The anchor slug behind a paper's "More" link: the text "<idx> <title>" with every
    character outside `[a-zA-Z0-9 -]` removed, spaces turned into dashes, then lower-cased. */
module Slugs {
  import opened Text
  import opened Seqs

  /** The characters the substitution `[^a-zA-Z0-9 -]` leaves in place. */
  predicate Kept(c: char) { IsLetter(c) || IsDigit(c) || c == ' ' || c == '-' }

  /** The characters a finished anchor is made of. */
  predicate AnchorChar(c: char) { IsLower(c) || IsDigit(c) || c == '-' }

  function DashForSpace(c: char): char { if c == ' ' then '-' else c }

  /** `s.replace(' ', '-')` */
  function Dashes(s: string): (r: string)
    ensures |r| == |s|
  {
    seq(|s|, i requires 0 <= i < |s| => DashForSpace(s[i]))
  }

  /** `s.lower()` on ASCII text. */
  function Lower(s: string): (r: string)
    ensures |r| == |s|
  {
    seq(|s|, i requires 0 <= i < |s| => LowerChar(s[i]))
  }

  /** The whole transformation applied to an arbitrary string. Only lower-case letters,
      digits and dashes survive, one for each kept character of `s`. */
  function Anchor(s: string): (r: string)
    ensures forall i :: 0 <= i < |r| ==> AnchorChar(r[i])
  {
    FilterMembers(Kept, s);
    Lower(Dashes(Filter(Kept, s)))
  }

  /** The anchor of the "More" link of the paper at position `idx` titled `title`. */
  function Slug(idx: nat, title: string): string
  {
    Anchor(NatToString(idx) + " " + title)
  }

  /** The slug has one character for each character of "<idx> <title>" in `[a-zA-Z0-9 -]`. */
  lemma AnchorLength(s: string)
    ensures |Anchor(s)| == Count(Kept, s)
  {
    FilterLength(Kept, s);
  }

  /** The slug has no space and no upper-case letter. */
  lemma AnchorHasNoSpaceOrUpper(s: string)
    ensures forall i :: 0 <= i < |Anchor(s)| ==> Anchor(s)[i] != ' ' && !IsUpper(Anchor(s)[i])
  {
  }

  /** A string made only of anchor characters is its own anchor. */
  lemma {:induction false} AnchorOfAnchorChars(s: string)
    requires forall i :: 0 <= i < |s| ==> AnchorChar(s[i])
    ensures Anchor(s) == s
  {
    FilterAllKept(Kept, s);
  }

  /** Applying the transformation to a slug returns the slug unchanged. */
  lemma AnchorIdempotent(s: string)
    ensures Anchor(Anchor(s)) == Anchor(s)
  {
    AnchorOfAnchorChars(Anchor(s));
  }

  /** The transformation works character by character, so it distributes over concatenation. */
  lemma AnchorAppend(a: string, b: string)
    ensures Anchor(a + b) == Anchor(a) + Anchor(b)
  {
    FilterAppend(Kept, a, b);
  }

  /** The slug is the decimal index, a dash, then the anchor of the title alone. */
  lemma SlugStartsWithIndex(idx: nat, title: string)
    ensures Slug(idx, title) == NatToString(idx) + "-" + Anchor(title)
    ensures StartsWith(Slug(idx, title), NatToString(idx) + "-")
  {
    var d := NatToString(idx);
    calc {
      Slug(idx, title);
    ==
      Anchor((d + " ") + title);
    == { AnchorAppend(d + " ", title); }
      Anchor(d + " ") + Anchor(title);
    == { AnchorAppend(d, " "); }
      Anchor(d) + Anchor(" ") + Anchor(title);
    == { AnchorOfAnchorChars(d); AnchorOfSpace(); }
      d + "-" + Anchor(title);
    }
  }

  lemma AnchorOfSpace()
    ensures Anchor(" ") == "-"
  {
    FilterSingleton(Kept, ' ');
    assert Dashes(" ") == "-";
  }

  /** The title "A New Result!" at position 2 gets the anchor "2-a-new-result":
      the `!` is dropped, spaces become dashes, capitals become small letters. */
  lemma SlugExample()
    ensures Slug(2, "A New Result!") == "2-a-new-result"
  {
    var title := "A New Result!";
    ExampleTitleAnchor();
    SlugStartsWithIndex(2, title);
    ExampleJoin();
  }

  lemma ExampleJoin()
    ensures NatToString(2) + "-" + "a-new-result" == "2-a-new-result"
  {
    assert NatToString(2) == "2";
  }

  lemma ExampleTitleAnchor()
    ensures Anchor("A New Result!") == "a-new-result"
  {
    ExampleTitleFilter("A New Result!", "A New Result");
    ExampleTitleCase();
  }

  /** The title is passed as a parameter here: written as a literal inside the
      contract, `Filter` on it is unrolled character by character. */
  lemma ExampleTitleFilter(title: string, kept: string)
    requires title == "A New Result!" && kept == "A New Result"
    ensures Filter(Kept, title) == kept
  {
    assert title == kept + "!";
    FilterAppend(Kept, kept, "!");
    FilterSingleton(Kept, '!');
    ExampleTitleKept(kept);
  }

  lemma ExampleTitleKept(kept: string)
    requires kept == "A New Result"
    ensures Filter(Kept, kept) == kept
  {
    FilterAllKept(Kept, kept);
  }

  lemma ExampleTitleCase()
    ensures Lower(Dashes("A New Result")) == "a-new-result"
  {
    assert Dashes("A New Result") == "A-New-Result";
  }
}

=== FILE: text.dfy ===
/** Character classes, whitespace stripping and decimal conversion, restricted to ASCII. */
module Text {

  predicate IsDigit(c: char) { '0' <= c <= '9' }
  predicate IsUpper(c: char) { 'A' <= c <= 'Z' }
  predicate IsLower(c: char) { 'a' <= c <= 'z' }
  predicate IsLetter(c: char) { IsUpper(c) || IsLower(c) }

  /** The ASCII characters Python's `str.isspace` accepts: tab, line feed, vertical tab,
      form feed, carriage return, the separators 0x1C..0x1F, and space. */
  predicate IsSpace(c: char) { '\t' <= c <= '\r' || '\U{1C}' <= c <= '\U{1F}' || c == ' ' }

  predicate AllDigits(s: string) { forall i :: 0 <= i < |s| ==> IsDigit(s[i]) }

  predicate StartsWith(s: string, prefix: string) { |prefix| <= |s| && s[..|prefix|] == prefix }

  predicate EndsWith(s: string, suffix: string) { |suffix| <= |s| && s[|s| - |suffix|..] == suffix }

  /** Python's `str.lower` on one ASCII character; every other character is left alone. */
  function LowerChar(c: char): (d: char)
    ensures !IsUpper(d)
    ensures IsLetter(c) <==> IsLetter(d)
    ensures IsLetter(c) ==> IsLower(d)
  {
    if IsUpper(c) then (c as int - 'A' as int + 'a' as int) as char else c
  }

  // ---------------------------------------------------------------- strip

  /** The first position at or after `i` that does not hold whitespace (or `|s|`). */
  function SkipSpaces(s: string, i: nat): (j: nat)
    requires i <= |s|
    ensures i <= j <= |s|
    ensures forall k :: i <= k < j ==> IsSpace(s[k])
    ensures j == |s| || !IsSpace(s[j])
    decreases |s| - i
  {
    if i < |s| && IsSpace(s[i]) then SkipSpaces(s, i + 1) else i
  }

  /** The end of `s[lo..j]` once its trailing whitespace is dropped. */
  function SkipSpacesBack(s: string, lo: nat, j: nat): (k: nat)
    requires lo <= j <= |s|
    ensures lo <= k <= j
    ensures forall m :: k <= m < j ==> IsSpace(s[m])
    ensures k == lo || !IsSpace(s[k - 1])
    decreases j
  {
    if j > lo && IsSpace(s[j - 1]) then SkipSpacesBack(s, lo, j - 1) else j
  }

  /** Python's `str.strip()` with no argument: the contiguous middle of `s` left once the
      whitespace on both ends is removed; empty exactly when `s` is all whitespace. */
  function Strip(s: string): (r: string)
    ensures |r| <= |s|
  {
    var lo := SkipSpaces(s, 0);
    var hi := SkipSpacesBack(s, lo, |s|);
    s[lo..hi]
  }

  /** What `Strip` leaves: nothing exactly when `s` is all whitespace; otherwise a middle part
      of `s` that neither starts nor ends with whitespace, with only whitespace cut on either
      side. */
  lemma StripSpec(s: string)
    ensures Strip(s) == [] <==> forall i :: 0 <= i < |s| ==> IsSpace(s[i])
    ensures Strip(s) != [] ==> !IsSpace(Strip(s)[0]) && !IsSpace(Strip(s)[|Strip(s)| - 1])
    ensures var lo := SkipSpaces(s, 0);
            lo + |Strip(s)| <= |s| && Strip(s) == s[lo..lo + |Strip(s)|]
            && (forall i :: 0 <= i < lo ==> IsSpace(s[i]))
            && (forall i :: lo + |Strip(s)| <= i < |s| ==> IsSpace(s[i]))
  {
  }

  // ---------------------------------------------------------------- decimal

  function DigitChar(d: nat): (c: char)
    requires d < 10
    ensures IsDigit(c)
  {
    ('0' as int + d) as char
  }

  function DigitValue(c: char): (d: nat)
    requires IsDigit(c)
    ensures d < 10 && DigitChar(d) == c
  {
    c as int - '0' as int
  }

  /** Python's `str(n)` for `n >= 0`: its decimal digits, with no leading zero. */
  function NatToString(n: nat): (s: string)
    ensures |s| > 0 && AllDigits(s)
    ensures s[0] == '0' <==> n == 0
    ensures n == 0 ==> s == "0"
  {
    if n < 10 then [DigitChar(n)] else NatToString(n / 10) + [DigitChar(n % 10)]
  }

  /** The number a string of decimal digits denotes (leading zeros allowed). */
  function DigitsValue(s: string): nat
    requires AllDigits(s)
  {
    if s == [] then 0 else 10 * DigitsValue(s[..|s| - 1]) + DigitValue(s[|s| - 1])
  }

  /** Reading back the decimal text of `n` gives `n`. */
  lemma {:induction false} DigitsValueOfNatToString(n: nat)
    ensures DigitsValue(NatToString(n)) == n
  {
    if n >= 10 {
      var s := NatToString(n);
      assert s[..|s| - 1] == NatToString(n / 10);
      DigitsValueOfNatToString(n / 10);
    }
  }

  /** A digit string as `str` writes it: non-empty, and no leading zero unless it is "0". */
  predicate Canonical(s: string)
  {
    |s| > 0 && AllDigits(s) && (s[0] == '0' ==> |s| == 1)
  }

  lemma {:induction false} LeadingNonZero(s: string)
    requires |s| > 0 && AllDigits(s) && s[0] != '0'
    ensures DigitsValue(s) >= 1
  {
    if |s| > 1 {
      LeadingNonZero(s[..|s| - 1]);
    }
  }

  /** Writing out the value of a canonical digit string gives the string back. */
  lemma {:induction false} NatToStringOfDigitsValue(s: string)
    requires Canonical(s)
    ensures NatToString(DigitsValue(s)) == s
  {
    if |s| > 1 {
      var init := s[..|s| - 1];
      LeadingNonZero(init);
      NatToStringOfDigitsValue(init);
      assert s == init + [s[|s| - 1]];
    }
  }

  /** Distinct numbers have distinct decimal texts. */
  lemma NatToStringInjective(m: nat, n: nat)
    requires NatToString(m) == NatToString(n)
    ensures m == n
  {
    DigitsValueOfNatToString(m);
    DigitsValueOfNatToString(n);
  }

  /** Python's `str(i)` for any integer. */
  function IntToString(i: int): (s: string)
    ensures |s| > 0
    ensures s[0] == '-' <==> i < 0
  {
    if i < 0 then "-" + NatToString(-i) else NatToString(i)
  }

  /** The end of the maximal run of digits that starts at `k`. */
  function DigitRunEnd(s: string, k: nat): (e: nat)
    requires k <= |s|
    ensures k <= e <= |s|
    ensures forall j :: k <= j < e ==> IsDigit(s[j])
    ensures e == |s| || !IsDigit(s[e])
    decreases |s| - k
  {
    if k < |s| && IsDigit(s[k]) then DigitRunEnd(s, k + 1) else k
  }

  /** The number written by the maximal run of digits at the front of `s` (0 if there is none). */
  function LeadingNumber(s: string): nat
  {
    DigitsValue(s[..DigitRunEnd(s, 0)])
  }

  /** Reading the leading number of a text that starts with the decimal form of `n`, and
      continues with anything but a digit, gives back `n`. */
  lemma LeadingNumberOfNatToString(n: nat, tail: string)
    requires tail == [] || !IsDigit(tail[0])
    ensures LeadingNumber(NatToString(n) + tail) == n
    ensures DigitRunEnd(NatToString(n) + tail, 0) == |NatToString(n)|
  {
    var d := NatToString(n);
    var s := d + tail;
    var e := DigitRunEnd(s, 0);
    assert forall j :: 0 <= j < |d| ==> s[j] == d[j];
    assert |d| == |s| || s[|d|] == tail[0];
    assert e == |d|;
    assert s[..e] == d;
    DigitsValueOfNatToString(n);
  }

  /** The leading number only depends on a prefix that holds a non-digit after its digits. */
  lemma LeadingNumberPrefix(s: string, t: string)
    requires StartsWith(s, t)
    requires DigitRunEnd(t, 0) < |t|
    ensures LeadingNumber(s) == LeadingNumber(t)
  {
    var e := DigitRunEnd(t, 0);
    assert forall j :: 0 <= j <= e ==> s[j] == t[j];
    assert DigitRunEnd(s, 0) == e;
    assert s[..e] == t[..e];
  }

  /** Dropping a matched first part of a prefix leaves a text that starts with the rest. */
  lemma StartsWithDrop(s: string, a: string, b: string)
    requires StartsWith(s, a + b)
    ensures StartsWith(s, a) && StartsWith(s[|a|..], b)
  {
    assert s[..|a|] == (a + b)[..|a|];
    assert s[|a|..][..|b|] == s[..|a| + |b|][|a|..];
  }

  /** A text that starts with `head`, the decimal index and then a non-digit shows that
      index right after `head`. */
  lemma IndexAfterMarker(r: string, head: string, idx: nat, tail: string)
    requires StartsWith(r, head + (NatToString(idx) + tail))
    requires tail != [] && !IsDigit(tail[0])
    ensures |r| >= |head| && r[..|head|] == head
    ensures LeadingNumber(r[|head|..]) == idx
  {
    StartsWithDrop(r, head, NatToString(idx) + tail);
    LeadingNumberOfNatToString(idx, tail);
    LeadingNumberPrefix(r[|head|..], NatToString(idx) + tail);
  }
}

=== FILE: topic.dfy ===
/** Topic classification: the leftmost "criterion <digits>" marker in a paper's comment. */
module Topic {
  import opened Wrappers
  import opened Text

  /** The literal the pattern `criterion (\d+)` starts with (case-sensitive, one space). */
  const Marker: string := "criterion "

  /** The pattern matches at position `i` of `s`: the marker, then at least one digit. */
  predicate MatchAt(s: string, i: nat)
  {
    i + |Marker| < |s| && s[i..i + |Marker|] == Marker && IsDigit(s[i + |Marker|])
  }

  /** A left-to-right scan for the first match at or after `from`. */
  function FindMatch(s: string, from: nat): (r: Option<nat>)
    ensures r.Some? ==> from <= r.value && MatchAt(s, r.value)
    ensures r.Some? ==> forall j :: from <= j < r.value ==> !MatchAt(s, j)
    ensures r.None? ==> forall j: nat :: from <= j ==> !MatchAt(s, j)
    decreases |s| - from
  {
    if from + |Marker| >= |s| then None
    else if MatchAt(s, from) then Some(from)
    else FindMatch(s, from + 1)
  }

  /** The number written by the digits right after the marker at a match position. */
  function MatchedNumber(s: string, i: nat): nat
    requires MatchAt(s, i)
  {
    LeadingNumber(s[i + |Marker|..])
  }

  /** `extract_criterion_from_paper`, reading only the paper's comment. */
  function TopicOf(comment: Option<string>): nat
  {
    match comment
    case None => 0
    case Some(s) =>
      match FindMatch(s, 0)
      case None => 0
      case Some(i) => MatchedNumber(s, i)
  }

  /** The topic is 0 for a missing comment or a comment without a match, and otherwise the
      number after the leftmost match. */
  lemma TopicOfLeftmost(comment: Option<string>)
    ensures comment.None? ==> TopicOf(comment) == 0
    ensures comment.Some? && (forall i: nat :: !MatchAt(comment.value, i)) ==> TopicOf(comment) == 0
    ensures forall i: nat :: comment.Some? && MatchAt(comment.value, i)
                             && (forall j :: 0 <= j < i ==> !MatchAt(comment.value, j))
                             ==> TopicOf(comment) == MatchedNumber(comment.value, i)
  {
  }

  /** The marker placed after a text without the letter `c` and before a digit is the
      leftmost match of the combined text, and the digits start right after it. */
  lemma MarkerAfter(pre: string, rest: string)
    requires forall j :: 0 <= j < |pre| ==> pre[j] != Marker[0]
    requires rest != [] && IsDigit(rest[0])
    ensures MatchAt(pre + Marker + rest, |pre|)
    ensures (pre + Marker + rest)[|pre| + |Marker|..] == rest
    ensures forall j :: 0 <= j < |pre| ==> !MatchAt(pre + Marker + rest, j)
  {
    var s := pre + Marker + rest;
    assert s[|pre|..|pre| + |Marker|] == Marker;
    assert s[|pre| + |Marker|..] == rest;
    forall j | 0 <= j < |pre|
      ensures !MatchAt(s, j)
    {
      assert s[j] == pre[j];
    }
  }

  /** A comment holding the marker and the decimal text of `n`, with no match anywhere
      before the marker, is classified under topic `n`, whatever follows once the digits end. */
  lemma TopicOfMarkedComment(pre: string, n: nat, tail: string)
    requires forall j :: 0 <= j < |pre| ==> !MatchAt(pre + Marker + NatToString(n) + tail, j)
    requires tail == [] || !IsDigit(tail[0])
    ensures TopicOf(Some(pre + Marker + NatToString(n) + tail)) == n
  {
    var rest := NatToString(n) + tail;
    var s := pre + Marker + NatToString(n) + tail;
    assert s == pre + Marker + rest;
    assert s[|pre|..|pre| + |Marker|] == Marker;
    assert s[|pre| + |Marker|..] == rest;
    assert MatchAt(s, |pre|);
    LeadingNumberOfNatToString(n, tail);
    TopicOfLeftmost(Some(s));
  }

  /** No `c` before the marker is one way to meet that condition. */
  lemma TopicOfMarkedCommentWithoutC(pre: string, n: nat, tail: string)
    requires forall j :: 0 <= j < |pre| ==> pre[j] != Marker[0]
    requires tail == [] || !IsDigit(tail[0])
    ensures TopicOf(Some(pre + Marker + NatToString(n) + tail)) == n
  {
    var rest := NatToString(n) + tail;
    assert pre + Marker + NatToString(n) + tail == pre + Marker + rest;
    MarkerAfter(pre, rest);
    TopicOfMarkedComment(pre, n, tail);
  }

  /** The leftmost match wins even after a near miss: "criterion A, then criterion 3" is topic 3. */
  lemma ExampleNearMiss()
    ensures TopicOf(Some("criterion A, then criterion 3")) == 3
  {
    var pre := "criterion A, then ";
    assert "criterion A, then criterion 3" == pre + Marker + NatToString(3) + "";
    forall j | 0 <= j < |pre|
      ensures !MatchAt(pre + Marker + NatToString(3) + "", j)
    {
      var s := pre + Marker + NatToString(3) + "";
      if j == 0 {
        assert !IsDigit(s[10]);
      } else {
        assert s[j..j + |Marker|] != Marker by {
          if j + |Marker| <= |s| {
            assert s[j..j + |Marker|][0] == s[j];
            assert s[j..j + |Marker|][1] == s[j + 1];
            assert s[j..j + |Marker|][2] == s[j + 2];
          }
        }
      }
    }
    TopicOfMarkedComment(pre, 3, "");
  }
}

=== FILE: wrappers.dfy ===
/** Failure-compatible result types shared by the whole model. */
module Wrappers {

  /** A value that may be absent, such as an optional key of a paper record. */
  datatype Option<+T> = None | Some(value: T)

  /** The outcome of an operation that either produces a value or raises an error. */
  datatype Result<+T, +E> = Success(value: T) | Failure(error: E)
}
